=== FILE: README.md ===
# GestionPresence attendance back end, in Dafny

This project models the Laravel controllers of GestionPresence, an attendance tracker for a school. The school has administrators (`admin`), teachers (`enseignant`) and students (`etudiant`).

- **Actions.** Each controller action is a pure function. It takes the database, the authenticated caller and the request fields. It returns the HTTP status and body the action answers with, together with the database the request leaves behind. Read-only actions return only the reply.
- **Database.** The database is an immutable record of six tables: users, classes, `class_teacher` associations, students, presences and notifications.
- **Rows.** Each table is a sequence of rows with auto-increment ids.
- **Invariants.** `Schema.WellFormed` gathers, table by table, the invariants the actions keep:
  - ids ascend;
  - roles are the three registrable ones;
  - e-mail addresses are unique;
  - one presence per (student, date);
  - one association per (class, teacher);
  - one student record per account;
  - statuses are `present` or `absent`.

Files and modules:

- optional.dfy (`Optional`): `Option`, with PHP's `??` as `GetOr`
- tally.dfy (`Tally`): filtering, counting, `groupBy`, the partition lemmas, ratios
- tables.dfy (`Tables`): auto-increment tables: find, insert, delete, replace
- schema.dfy (`Schema`, `Http`): the entities, relations and invariants; statuses and replies
- matricule.dfy (`Matricules`): `IUT-` matricules: formatting, parsing, the next number
- notifications.dfy (`Notifications`): notification fan-out, `AllNotifications`, `markAsRead`
- presences.dfy (`Presences`): PresenceController
- students.dfy (`Students`): StudentController
- class_teacher.dfy (`ClassTeachers`): ClassTeacherController
- classe.dfy (`Classes`): ClasseController
- stats.dfy (`Stats`): StatsController
- teacher.dfy (`Teachers`): TeacherController
- roster.dfy (`Rosters`): ClassesController
- teacher_classes.dfy (`TeacherClasses`): TeacherClassesController
- teacher_stats.dfy (`TeacherStats`): TeacherStatsController
- auth.dfy (`Auth`): AuthController

Several actions call `$user->classes()`. `User` declares no such relation: it declares only `classe()`, the belongs-to-many through `class_teacher` (app/Models/User.php:24-27). As written, each of those calls would throw, and the catch blocks that exist would answer 500. The model gives these actions the intended meaning: the caller's classes are the class rows linked to the caller by a `class_teacher` row (`Schema.AssignedClasses`).

## Model

| member | source | states |
|---|---|---|
| Schema.StudentsOf | app/Models/Classe.php:15-18 | a class's students are exactly the student rows whose `class_id` is that class |
| Schema.AssignedClasses | app/Models/User.php:24-27 | a teacher's classes are exactly the class rows joined to the user by a `class_teacher` row |
| Schema.StudentOfUser | app/Models/User.php:19-22 | an account has a student record iff some student row carries its `user_id`, and the record found is one of those rows |
| Schema.Admins | app/Http/Controllers/PresenceController.php:83 | exactly the accounts whose role is `admin` |
| Schema.WithStudentCounts | app/Http/Controllers/ClasseController.php:99 | every class, in order, paired with the number of students whose `class_id` is that class |
| Tally.KeysInOrder | app/Http/Controllers/TeacherController.php:90 | `groupBy` lists the groups in order of first appearance: an earlier key occurs in the records before every occurrence of a later one |
| Tally.GroupsPartition | app/Http/Controllers/TeacherController.php:90 | the groups of a `groupBy` partition the grouped records: their sizes sum to the number of records |
| Tally.SumCountsDistinct | app/Models/Classe.php:26-36 | over distinct keys, the per-key counts sum to the number of records whose key is among them |
| Tally.Ratio | app/Http/Controllers/StatsController.php:19-20 | the ratio times the denominator is the numerator; 0 when the denominator is 0; within [0, 1] when the numerator is at most the denominator |
| Tally.Percent | app/Http/Controllers/TeacherController.php:89 | the rate times the total is 100 times the count; 0 when the total is 0; within [0, 100] when the count is at most the total |
| Matricules.NextNumber | app/Http/Controllers/StudentController.php:49-50 | 1 when there is no student, otherwise one more than the number the matricule of the student with the highest id carries |
| Matricules.NextMatricule | app/Http/Controllers/StudentController.php:49-51 | the new matricule starts with `IUT-` and carries the next number; it is `IUT-000001` for the first student; below a million it is ten characters with six digits after the prefix |
| Matricules.PadLeft | app/Http/Controllers/StudentController.php:51 | the padded text is at least `width` long, ends with the original text and is padded only with the pad character |
| Matricules.Format | app/Http/Controllers/StudentController.php:51 | `IUT-` followed by at least six digits whose decimal value is the number |
| Matricules.RemoveTags | app/Http/Controllers/StudentController.php:50 | never longer than its input; a leading `IUT-` is removed; a text with no occurrence of `IUT-` is returned unchanged |
| Matricules.IntCast | app/Http/Controllers/StudentController.php:50 | the value of the longest leading run of digits; 0 when the text does not start with a digit; the plain value for an all-digit text |
| Matricules.Number | app/Http/Controllers/StudentController.php:50 | for `IUT-` followed by digits, and for bare digits, the value of those digits |
| Matricules.RoundTrip | app/Http/Controllers/StudentController.php:50-51 | stripping `IUT-` from a formatted matricule and casting the rest to an integer gives back its number, for every number |
| Matricules.FormatShape | app/Http/Controllers/StudentController.php:51 | below a million the matricule is `IUT-` followed by exactly six digits |
| Matricules.NextNumberAdvances | app/Http/Controllers/StudentController.php:49-53 | a student created with a higher id and a matricule carrying the next number (as the generated one does) moves the next number on by exactly one |
| Notifications.NotifyAll | app/Http/Controllers/PresenceController.php:82-91 | keeps every existing notification and appends one unread notification per recipient, in recipient order, and keeps ids ascending |
| Notifications.AllNotifications | app/Http/Controllers/NotificationController.php:13-21 | exactly the caller's notifications, newest (highest id) first |
| Notifications.OwnedNotification | app/Http/Controllers/NotificationController.php:29-31 | finds the notification only when it exists and belongs to the caller |
| Notifications.MarkAsRead | app/Http/Controllers/NotificationController.php:26-36 | another user's or a missing notification answers 404 and changes nothing; otherwise only that row's `read` becomes true |
| Notifications.MarkAsReadIdempotent | app/Http/Controllers/NotificationController.php:33 | marking twice leaves the same state and reply as marking once |
| Presences.Index | app/Http/Controllers/PresenceController.php:14-21 | 403 to non-administrators; otherwise every presence |
| Presences.StudentPresence | app/Http/Controllers/PresenceController.php:24-44 | 403 to non-administrators; otherwise exactly the presences matching the class and date filters, newest first, where a class id of 0 filters nothing |
| Presences.StoreRefusal | app/Http/Controllers/PresenceController.php:51-73 | the order of the checks: validation 422, then no class 422, then non-teacher 403, then a dangling class 500 for a teacher, then a teacher not assigned 403, then an existing (student, date) 422 once the caller may record; no refusal exactly when all pass |
| Presences.Record | app/Http/Controllers/PresenceController.php:75-91 | appends exactly the requested presence; only presences and notifications change; when notifying, every administrator gets one unread notification; the invariants survive a free (student, date) pair |
| Presences.Store | app/Http/Controllers/PresenceController.php:48-94 | errors write nothing; success answers 201 with the new row, appends exactly it, notifies the administrators iff the author is not one, and keeps every invariant |
| Presences.InsertKeepsUnique | app/Http/Controllers/PresenceController.php:71-79 | appending a presence with a free (student, date) keeps one presence per pair |
| Presences.Show | app/Http/Controllers/PresenceController.php:98-105 | 404 for a missing presence, then 403 to non-administrators; an administrator asking for an existing presence always gets 200 with that row |
| Presences.Update | app/Http/Controllers/PresenceController.php:109-136 | 404, then 403, then 422 for validation, then 422 for a (student, date) pair held by another row; success exactly when none applies; success rewrites that row only and keeps every invariant |
| Presences.ReplaceKeepsUnique | app/Http/Controllers/PresenceController.php:121-133 | overwriting a row with a pair no other row holds keeps one presence per pair |
| Presences.Destroy | app/Http/Controllers/PresenceController.php:140-148 | 404, then 403; success removes exactly that row and nothing else changes |
| Presences.ClassPresences | app/Http/Controllers/PresenceController.php:152-169 | 404 for an unknown class, then 403; otherwise exactly the presences of that class's students, on the date if one is given |
| Presences.MyPresences | app/Http/Controllers/PresenceController.php:173-190 | 403 unless `etudiant`, 404 without a student record; otherwise exactly the presences of the caller's own record |
| Presences.TeacherClasses | app/Http/Controllers/PresenceController.php:194-203 | 403 unless `enseignant`; otherwise exactly the caller's assigned classes, each with its student count |
| Presences.StoreThenShow | app/Http/Controllers/PresenceController.php:75-104 | a presence just recorded is what an administrator's `show` answers for its id |
| Presences.StoreTwiceConflicts | app/Http/Controllers/PresenceController.php:71-73 | the same accepted request sent again is refused with 422 and writes nothing |
| Presences.OnlyRecordOfItsPair | app/Http/Controllers/PresenceController.php:121-124 | with one presence per pair, no other row holds a stored presence's pair |
| Presences.UpdateResaveAllowed | app/Http/Controllers/PresenceController.php:121-135 | an administrator re-saving a presence with its own fields succeeds and answers the same row |
| Presences.StoreResaveRejected | app/Http/Controllers/PresenceController.php:59-73 | the same fields sent to `store` are refused with 422 |
| Students.NewStudent | app/Http/Controllers/StudentController.php:49-59 | the new record carries the given account, class and names, and the next matricule: `IUT-` and the next number padded to six digits (`IUT-000001` for the first student) |
| Students.AddKeepsWellFormed | app/Http/Controllers/StudentController.php:45-59 | appending a record for an account without one keeps the invariants |
| Students.Index | app/Http/Controllers/StudentController.php:14-22 | 403 to non-administrators; otherwise every student |
| Students.Store | app/Http/Controllers/StudentController.php:27-62 | 403, then 422 for validation, for a non-`etudiant` account or an account already enrolled; success answers 201 with the requested fields and the next matricule text (`IUT-` and the six-digit next number), appends only that record, and keeps every invariant |
| Students.Show | app/Http/Controllers/StudentController.php:67-74 | 404, then 403; an administrator asking for an existing record always gets 200 with that row |
| Students.RelinkKeepsWellFormed | app/Http/Controllers/StudentController.php:97-106 | overwriting a record with an account owning no other record keeps the invariants |
| Students.UpdateAs | app/Http/Controllers/StudentController.php:79-109 | 404, then 403, then 422 for validation, 422 for an account without the demanded role, 422 for an account linked to a different record; success exactly when none applies; success rewrites that record and keeps its matricule |
| Students.Update | app/Http/Controllers/StudentController.php:79-109 | as written: 404, 403, 422 for validation, 422 for any account whose role is not `student`; success exactly when the account has role `student` and owns no other record |
| Students.UpdateIntended | app/Http/Controllers/StudentController.php:79-109 | as intended: 404, 403, 422 for validation, 422 for a non-`etudiant` account; a valid request naming an `etudiant` account that owns no other record succeeds and rewrites only that record |
| Students.Destroy | app/Http/Controllers/StudentController.php:114-122 | 404, then 403; success removes exactly that record and nothing else changes |
| Students.AssignClass | app/Http/Controllers/StudentController.php:127-142 | 404, then 403, then 422 for a missing or unknown class; success exactly when none applies, and it changes only that record's `class_id` |
| Students.EnrollAs | app/Http/Controllers/StudentController.php:147-177 | wrong role 403, already enrolled 422, validation 422; success answers 201 and appends exactly one record owned by the caller, with the requested class and names and the next matricule text |
| Students.Enroll | app/Http/Controllers/StudentController.php:147-177 | as written: anyone but role `student` gets 403; a `student` already enrolled gets 422, one failing validation 422; otherwise 201 and one record with the next matricule text, exactly as EnrollAs with role `student` |
| Students.EnrollIntended | app/Http/Controllers/StudentController.php:147-177 | as intended: anyone but `etudiant` gets 403, an enrolled `etudiant` 422, failed validation 422; otherwise 201 and exactly one appended record owned by the caller, with the requested class and names and the next matricule text |
| Students.NoStudentRole | app/Http/Controllers/AuthController.php:49 | no account of a well-formed database has role `student` |
| Students.EnrollNeverAdmits | app/Http/Controllers/StudentController.php:150-152 | as written, every registered account is refused by `enroll` with 403 |
| Students.UpdateNeverSucceeds | app/Http/Controllers/StudentController.php:92-95 | as written, `update` never succeeds and never writes |
| Students.EnrollIntendedOnce | app/Http/Controllers/StudentController.php:154-174 | the intended `enroll` succeeds once, `User::student` then finds the new record, and a second attempt is refused with 422 |
| Students.StoreThenShow | app/Http/Controllers/StudentController.php:53-73 | a record just created is what `show` answers for its id |
| Students.StoreNumbersConsecutive | app/Http/Controllers/StudentController.php:49-51 | two successive creations carry consecutive matricule numbers |
| Students.AdminOnly | app/Http/Controllers/StudentController.php:14-142 | each administrator action refuses a non-administrator with 403 and writes nothing |
| ClassTeachers.Index | app/Http/Controllers/ClassTeacherController.php:15-23 | as intended, loading the `teacher` relation: 403 to non-administrators; otherwise every association |
| ClassTeachers.IndexAsWritten | app/Http/Controllers/ClassTeacherController.php:15-23 | as written: 403 to non-administrators; the empty list when there is no association; 500 as soon as there is one |
| ClassTeachers.AddKeepsWellFormed | app/Http/Controllers/ClassTeacherController.php:45-55 | appending a pair not linked yet keeps one association per pair |
| ClassTeachers.Store | app/Http/Controllers/ClassTeacherController.php:28-58 | as intended, loading the `teacher` relation: 403, then 422 for validation, for a non-`enseignant` user or an existing pair; success answers 201, appends exactly that pair, makes the user a teacher of the class and keeps the invariants |
| ClassTeachers.StoreAsWritten | app/Http/Controllers/ClassTeacherController.php:28-58 | as written: never succeeds; refuses as intended, but an accepted request appends the association and then answers 500 |
| ClassTeachers.Show | app/Http/Controllers/ClassTeacherController.php:63-70 | as intended, loading the `teacher` relation: 404, then 403; an administrator asking for an existing association always gets 200 with that row |
| ClassTeachers.ShowAsWritten | app/Http/Controllers/ClassTeacherController.php:63-70 | as written: 404, then 403; every association an administrator asks for answers 500 |
| ClassTeachers.Destroy | app/Http/Controllers/ClassTeacherController.php:75-83 | 404, then 403; success removes exactly that association |
| ClassTeachers.StoreTwiceConflicts | app/Http/Controllers/ClassTeacherController.php:45-50 | the same pair requested again is refused with 422 and writes nothing |
| ClassTeachers.EagerLoadFails | app/Http/Controllers/ClassTeacherController.php:21-69 | for an administrator and an existing association, the intended `index` and `show` answer 200 while the written ones answer 500 |
| ClassTeachers.StoreAsWrittenRetry | app/Http/Controllers/ClassTeacherController.php:45-57 | as written, a request answered 500 has created the association, and sending it again is refused as a duplicate with 422 |
| ClassTeachers.DestroyUnlinks | app/Http/Controllers/ClassTeacherController.php:81-82 | after deleting an association, its teacher is no longer linked to its class |
| Classes.Index | app/Http/Controllers/ClasseController.php:93-100 | 403 to non-administrators; otherwise every class with its number of students |
| Classes.Store | app/Http/Controllers/ClasseController.php:105-122 | 403, then 422 unless the name is a non-empty string of at most 255 characters; success answers 201 and appends exactly that class |
| Classes.Show | app/Http/Controllers/ClasseController.php:127-134 | 404, then 403; an administrator asking for an existing class always gets 200 with that class and its number of students |
| Classes.Update | app/Http/Controllers/ClasseController.php:139-156 | 404, 403, 422; success rewrites only that class's name and description |
| Classes.Destroy | app/Http/Controllers/ClasseController.php:161-169 | 404, then 403; success removes exactly that class |
| Classes.StoreThenShow | app/Http/Controllers/ClasseController.php:116-133 | a class just created is shown with what was stored and no students |
| Classes.UpdateIdempotent | app/Http/Controllers/ClasseController.php:150-153 | updating twice with the same request gives the same result as updating once |
| Stats.Rooms | app/Http/Controllers/StatsController.php:22-35 | one line per class, in class order, each counting the present and absent presences of the students of that class |
| Stats.Stats | app/Http/Controllers/StatsController.php:11-43 | 403 to non-administrators; otherwise the numbers of `present` and of `absent` presences, their ratio in [0, 1] (0 when both are 0), and one room per class, in class order, with the class name and the numbers of `present` and of `absent` presences of the students of that class |
| Stats.TotalsCoverAll | app/Http/Controllers/StatsController.php:17-19 | present plus absent is the number of presences |
| Stats.RoomsPartitionTotals | app/Http/Controllers/StatsController.php:22-28 | each total is the sum over the rooms plus the presences of students in no existing class |
| Stats.RoomsCoverTotals | app/Http/Controllers/StatsController.php:22-35 | when every presence's student is in an existing class, the rooms sum to the totals |
| Teachers.GetProfile | app/Http/Controllers/TeacherController.php:16-32 | 403 unless the caller is an `enseignant`; otherwise the caller's own name, e-mail and role |
| Teachers.GetClasses | app/Http/Controllers/TeacherController.php:37-54 | 403 unless `enseignant`; otherwise exactly the assigned classes with their student counts |
| Teachers.Watched | app/Http/Controllers/TeacherController.php:79-83 | exactly the presences whose student's class is one of the teacher's classes |
| Teachers.ClassName | app/Http/Controllers/TeacherController.php:93-95 | the name of the group's class, or `N/A` when the class row is missing |
| Teachers.StatOf | app/Http/Controllers/TeacherController.php:90-100 | a group's total and present count, absent is total minus present, and the rate is a percentage in [0, 100] |
| Teachers.ByClass | app/Http/Controllers/TeacherController.php:90-101 | one line per key given, in that order, each the statistics of that key's group |
| Teachers.GetStats | app/Http/Controllers/TeacherController.php:59-112 | 403 unless `enseignant`; all zeros and no lines without classes; otherwise the counts over the watched presences, the percentage, and one line per class found among them, in order of first appearance |
| Teachers.ByClassPartitionsTotal | app/Http/Controllers/TeacherController.php:90-101 | the totals of the lines sum to the overall total |
| Teachers.ByClassOnlyAssigned | app/Http/Controllers/TeacherController.php:79-90 | every line is about one of the teacher's own classes |
| Teachers.PresentAbsentMakeTotal | app/Http/Controllers/TeacherController.php:86-89 | present plus absent is the total, and the rate lies in [0, 100] |
| Rosters.Index | app/Http/Controllers/ClassesController.php:14-26 | every class, to any caller |
| Rosters.EmailOf | app/Http/Controllers/ClassesController.php:51 | the account's e-mail address, or null when the account row is gone |
| Rosters.Roster | app/Http/Controllers/ClassesController.php:45-53 | one line per student of the class, in order |
| Rosters.GetStudents | app/Http/Controllers/ClassesController.php:31-63 | 404 for an unknown class, 403 only to an `enseignant` not assigned to it; otherwise exactly the class's students with id, names, matricule and e-mail |
| Rosters.RosterIndependentOfCaller | app/Http/Controllers/ClassesController.php:40-53 | any two callers admitted to a roster see the same roster |
| Rosters.RosterMatchesCount | app/Http/Controllers/ClassesController.php:45-53 | the roster has as many lines as ClasseController's `show` counts students |
| Rosters.ListingsAgree | app/Http/Controllers/ClassesController.php:17-18 | the open listing shows the same classes, in the same order, as the administrators' listing |
| TeacherClasses.GroupOf | app/Http/Controllers/TeacherClassesController.php:21-32 | the class id, its name or `Inconnu` when null, and exactly its students with id and names |
| TeacherClasses.TeacherPresence | app/Http/Controllers/TeacherClassesController.php:11-45 | 403 to a missing caller or a non-`enseignant`; otherwise exactly the caller's assigned classes |
| TeacherClasses.AgreesWithGetClasses | app/Http/Controllers/TeacherClassesController.php:19-31 | the same classes as TeacherController's `getClasses`, each listing as many students as that counts |
| TeacherStats.TeacherStats | app/Http/Controllers/TeacherStatsController.php:10-50 | 401 without a caller, 403 for a non-`enseignant`; otherwise the number of assigned classes and of watched presences on or after the cut-off |
| TeacherStats.StudentsCounted | app/Http/Controllers/TeacherStatsController.php:25 | the student counter is the number of students whose class is one of the teacher's classes |
| TeacherStats.PresencesWithinTotal | app/Http/Controllers/TeacherStatsController.php:28-34 | the recent presences are never more than TeacherController's `getStats` total |
| TeacherStats.AllRecentIsTotal | app/Http/Controllers/TeacherStatsController.php:28-34 | when every presence is on or after the cut-off, the counter equals that total |
| TeacherStats.ClassesCounted | app/Http/Controllers/TeacherStatsController.php:22 | the class counter is the length of `getClasses` |
| Auth.AccountOf | app/Http/Controllers/AuthController.php:22 | the account exists iff some user row has the address, and it is one of them |
| Auth.Login | app/Http/Controllers/AuthController.php:15-38 | 422 for invalid fields, and for valid fields every refusal is 401: no account has the address, or the password does not match the account's; success is the profile of an account with that address whose password matches, iff one exists when addresses are unique |
| Auth.Register | app/Http/Controllers/AuthController.php:43-71 | 422, writing nothing, unless the name, the address (well-formed and unused), a password of at least 4 characters and one of the three roles are given; success answers 201 with the new profile, appends exactly that account and keeps the invariants |
| Auth.AddKeepsUsersOk | app/Http/Controllers/AuthController.php:47-58 | an account with a valid role and an unused address keeps the users' invariants |
| Auth.Actor | app/Http/Controllers/AuthController.php:85-94 | the caller's own id, name, e-mail and role |
| Auth.ListRoles | app/Http/Controllers/AuthController.php:96-112 | 403 to non-administrators; otherwise exactly the profiles of the accounts whose role is among those asked, each account once (the list is as long as the number of such accounts) |
| Auth.ListUsers | app/Http/Controllers/AuthController.php:96-103 | 403 to non-administrators; otherwise exactly the teacher and student accounts: every entry is the profile of such an account, every such account is listed, and the list is as long as their number |
| Auth.ListTeachers | app/Http/Controllers/AuthController.php:105-112 | 403 to non-administrators; otherwise exactly the teacher accounts: every entry is the profile of a teacher account, every teacher account is listed, and the list is as long as their number |
| Auth.RegisterTwiceConflicts | app/Http/Controllers/AuthController.php:47 | the same registration again is refused with 422 and writes nothing |
| Auth.RegisterThenLogin | app/Http/Controllers/AuthController.php:53-70 | logging in with the registered address and password answers the profile registration answered, which is also the new account's `actor` profile |
| Auth.TeachersAmongUsers | app/Http/Controllers/AuthController.php:101-111 | every account `teacher` lists is also listed by `user` |

## Left out

- Tokens, password hashing and logout (`createToken`, `Hash::make`, `currentAccessToken()->delete()`) are outside the model. Whether a password matches an account is the parameter `matches` of `Auth.Login`. The `email` validation rule is the parameter `isEmail`.
- Auth.Login: `Auth::attempt` is modelled as "the first account with the address, and its password matches". The guard internals and events are not modelled.
- The responses carry rows and selected fields only. The related rows that eager loading (`with`, `load`) attaches are not modelled. The one eager load that fails, ClassTeacherController's `enseignant`, is modelled (see Findings).
- Every `catch` block that turns an exception into a 500, and the logging, are left out. The exception is the 500 that `Presences.StoreRefusal` answers when a teacher records a presence for a student whose class row is gone. That call dereferences null, and the action has no catch.
- The actions that call the undefined `$user->classes()` are modelled as intended, through `Schema.AssignedClasses`; as written they answer 500. These are `teacherClasses`, `getClasses`, `getStats`, `getStudents`, `TeacherPresence` and `TeacherStats`.
- Tally.Ratio: not rounded; the source's division is floating point.
- Tally.Percent: not rounded; the source rounds to two decimals with `round(..., 2)`.
- TeacherStats.TeacherStats: the wall clock is left out. The cut-off date (thirty days before the request) is a parameter, and dates are integers. The time of day that `now()` adds to the comparison is not modelled.
- Concurrency is not modelled, and the model is sequential. Concurrent requests could race on the duplicate checks of `store` and on the matricule scan.
- Matricules.IntCast: PHP's `(int)` cast is modelled for digit strings only, as the value of the leading digits. Signs, leading blanks and exponents are not modelled. Numbers are unbounded: PHP saturates the cast at PHP_INT_MAX and the `+ 1` then gives a float, which only a matricule of nineteen or more digits could reach.
- Validation: `required` strings are modelled as present and non-empty. Whitespace trimming and multibyte length are not modelled. `date` validation is modelled as "a date is given".
- Deletes do not cascade. Deleting a class, a student or an account leaves the rows that point to it, as the controllers do. Foreign-key constraints of the database schema are not part of this model.
- `latest()` is modelled as descending id order. That is the creation order, since timestamps are not modelled.
- Notification texts are kept as their parts (`Schema.Message`), with no date formatting.
- The `?: ['message' => ...]` fallbacks of the listings never trigger, because an empty collection is an object and so truthy. The model answers the (possibly empty) list.
- The frontend, the routing table and the commented-out duplicate of ClasseController are not modelled. routes/api.php maps several URLs to method names the controllers do not define.

## Findings

| source | as written | input that shows it | evidently intended | confidence | as-written member | corrected member |
|---|---|---|---|---|---|---|
| app/Http/Controllers/StudentController.php:150 | `enroll` admits only role `student` | any registered account: registration only assigns `admin`, `enseignant` or `etudiant` (AuthController.php:49), so an `etudiant` gets 403 | admit `etudiant` accounts | not executed | Students.Enroll, with Students.EnrollNeverAdmits | Students.EnrollIntended, with Students.EnrollIntendedOnce |
| app/Http/Controllers/ClassTeacherController.php:57 | `store` loads the relation `enseignant`, which the association model does not define (it defines `teacher`, app/Models/ClassTeacher.php:23-26) | an administrator assigns an `enseignant` to a class for the first time: the row is created, the load throws, the answer is 500, and resending gets 422 | load `teacher` and answer 201 with the association | not executed | ClassTeachers.StoreAsWritten, with ClassTeachers.StoreAsWrittenRetry | ClassTeachers.Store, with ClassTeachers.StoreTwiceConflicts |
| app/Http/Controllers/ClassTeacherController.php:69 | `show` loads the undefined relation `enseignant` | an administrator asks for any existing association: 500 | load `teacher` and answer the association | not executed | ClassTeachers.ShowAsWritten, with ClassTeachers.EagerLoadFails | ClassTeachers.Show |
| app/Http/Controllers/ClassTeacherController.php:21 | `index` eager-loads the undefined relation `enseignant` | an administrator lists the associations while at least one exists: 500 | load `teacher` and answer every association | not executed | ClassTeachers.IndexAsWritten, with ClassTeachers.EagerLoadFails | ClassTeachers.Index |
| app/Http/Controllers/StudentController.php:93 | `update` requires the linked account to have role `student` | an administrator updating any student with its own `etudiant` account gets 422 | require an `etudiant` account | not executed | Students.Update, with Students.UpdateNeverSucceeds | Students.UpdateIntended |

=== FILE: auth.dfy ===
/** AuthController: registration, login, the caller's own profile, and the
    administrators' user lists. Tokens and password hashes are outside the
    model: whether a password matches an account's stored hash is the
    parameter `matches`, and the `email` validation rule is the parameter
    `isEmail`. */
module Auth {

  import opened Optional
  import opened Tally
  import opened Tables
  import opened Schema
  import opened Http

  /** The `user` object of the replies: id, name, email and role. */
  datatype Profile = Profile(id: nat, name: string, email: string, role: string)

  function ProfileOf(u: Row<User>): Profile {
    Profile(u.id, u.data.name, u.data.email, u.data.role)
  }

  /** The profiles of `us`, in order. */
  function Profiles(us: seq<Row<User>>): (r: seq<Profile>)
    ensures |r| == |us|
    ensures forall i :: 0 <= i < |us| ==> r[i] == ProfileOf(us[i])
  {
    seq(|us|, i requires 0 <= i < |us| => ProfileOf(us[i]))
  }

  /** `required|string`: present and non-empty. */
  predicate Present(field: Option<string>) {
    field.Some? && |field.value| > 0
  }

  /** `required|email`. */
  predicate EmailField(field: Option<string>, isEmail: string -> bool) {
    Present(field) && isEmail(field.value)
  }

  function EmailIs(email: string): Row<User> -> bool {
    (u: Row<User>) => u.data.email == email
  }

  /** The account an e-mail address names: the first user row with it. */
  function AccountOf(db: Db, email: string): (r: Option<Row<User>>)
    ensures r.Some? <==> exists i :: 0 <= i < |db.users.rows| && db.users.rows[i].data.email == email
    ensures r.Some? ==> r.value in db.users.rows && r.value.data.email == email
  {
    First(db.users.rows, EmailIs(email))
  }

  // ---------------------------------------------------------------------
  // Login

  datatype Credentials = Credentials(email: Option<string>, password: Option<string>)

  predicate ValidCredentials(req: Credentials, isEmail: string -> bool) {
    EmailField(req.email, isEmail) && Present(req.password)
  }

  /** `login`: validation, then the account of the e-mail address must
      exist and its password must match. */
  function Login(db: Db, req: Credentials, isEmail: string -> bool, matches: (nat, string) -> bool): (r: Reply<Profile>)
    ensures !ValidCredentials(req, isEmail) ==> r == Err(StatusUnprocessable)
    ensures ValidCredentials(req, isEmail) && AccountOf(db, req.email.value).None? ==> r == Err(StatusUnauthenticated)
    ensures r.Err? ==> r.code in {StatusUnprocessable, StatusUnauthenticated}
    ensures ValidCredentials(req, isEmail) && r.Err? ==> r.code == StatusUnauthenticated
    ensures (&& ValidCredentials(req, isEmail) && AccountOf(db, req.email.value).Some?
             && !matches(AccountOf(db, req.email.value).value.id, req.password.value)) ==> r == Err(StatusUnauthenticated)
    ensures r.Ok? ==>
      && r.code == StatusOk && ValidCredentials(req, isEmail)
      && exists u :: u in db.users.rows && u.data.email == req.email.value && matches(u.id, req.password.value) && r.body == ProfileOf(u)
    ensures EmailsUnique(db.users) ==>
      (r.Ok? <==> (ValidCredentials(req, isEmail) &&
        exists u :: u in db.users.rows && u.data.email == req.email.value && matches(u.id, req.password.value)))
  {
    if !ValidCredentials(req, isEmail) then Err(StatusUnprocessable)
    else
      match AccountOf(db, req.email.value)
      case None => Err(StatusUnauthenticated)
      case Some(u) => if matches(u.id, req.password.value) then Ok(StatusOk, ProfileOf(u)) else Err(StatusUnauthenticated)
  }

  // ---------------------------------------------------------------------
  // Registration

  datatype Registration = Registration(name: Option<string>, email: Option<string>, password: Option<string>, role: Option<string>)

  /** The validation rules of `register`, uniqueness of the e-mail address
      included. */
  predicate ValidRegistration(db: Db, req: Registration, isEmail: string -> bool) {
    && RequiredString(req.name, 255)
    && EmailField(req.email, isEmail)
    && AccountOf(db, req.email.value).None?
    && req.password.Some? && |req.password.value| >= 4
    && req.role.Some? && req.role.value in {RoleEnseignant, RoleEtudiant, RoleAdmin}
  }

  /** `register`: one new account, answered with its profile. */
  function Register(db: Db, req: Registration, isEmail: string -> bool): (r: Outcome<Profile>)
    ensures r.reply.Err? ==> r.reply.code == StatusUnprocessable && r.db == db
    ensures r.reply.Ok? <==> ValidRegistration(db, req, isEmail)
    ensures r.reply.Ok? ==>
      && r.reply.code == StatusCreated
      && r.reply.body == Profile(db.users.next, req.name.value, req.email.value, req.role.value)
      && r.db == db.(users := r.db.users)
      && r.db.users.rows == db.users.rows + [Row(db.users.next, User(req.name.value, req.email.value, req.role.value))]
    ensures WellFormed(db) ==> WellFormed(r.db)
  {
    if !ValidRegistration(db, req, isEmail) then Refuse(db, StatusUnprocessable)
    else
      var u := User(req.name.value, req.email.value, req.role.value);
      var after := db.(users := Insert(db.users, u));
      if WellFormed(db) then
        AddKeepsUsersOk(db.users, u);
        Outcome(Ok(StatusCreated, ProfileOf(Row(db.users.next, u))), after)
      else Outcome(Ok(StatusCreated, ProfileOf(Row(db.users.next, u))), after)
  }

  /** A new account with a valid role and an unused address keeps the
      users' invariants. */
  lemma AddKeepsUsersOk(users: Table<User>, u: User)
    requires UsersOk(users)
    requires u.role in {RoleEnseignant, RoleEtudiant, RoleAdmin}
    requires forall i :: 0 <= i < |users.rows| ==> users.rows[i].data.email != u.email
    ensures UsersOk(Insert(users, u))
  {
    var after := Insert(users, u);
    forall a | a in users.rows
      ensures a.data.email != u.email
    {
      var i :| 0 <= i < |users.rows| && users.rows[i] == a;
    }
    assert after.rows[|users.rows|] == Row(users.next, u);
  }

  // ---------------------------------------------------------------------
  // The caller's profile and the user lists

  /** `actor`: the authenticated caller's own profile. */
  function Actor(caller: Row<User>): (r: Profile)
    ensures r.id == caller.id && r.name == caller.data.name && r.email == caller.data.email && r.role == caller.data.role
  {
    ProfileOf(caller)
  }

  function RoleIn(roles: set<string>): Row<User> -> bool {
    (u: Row<User>) => u.data.role in roles
  }

  /** The accounts whose role is one of `roles`, as profiles, to
      administrators only. */
  function ListRoles(db: Db, caller: Row<User>, roles: set<string>): (r: Reply<seq<Profile>>)
    ensures !IsAdmin(caller) ==> r == Err(StatusForbidden)
    ensures IsAdmin(caller) ==> r.Ok? && r.code == StatusOk
    ensures r.Ok? ==> forall i :: 0 <= i < |r.body| ==>
      exists u :: u in db.users.rows && u.data.role in roles && r.body[i] == ProfileOf(u)
    ensures r.Ok? ==> forall u :: u in db.users.rows && u.data.role in roles ==> ProfileOf(u) in r.body
    ensures r.Ok? ==> |r.body| == Count(db.users.rows, RoleIn(roles))
  {
    if !IsAdmin(caller) then Err(StatusForbidden)
    else
      var us := Filter(db.users.rows, RoleIn(roles));
      var ps := Profiles(us);
      forall u | u in db.users.rows && u.data.role in roles
        ensures ProfileOf(u) in ps
      {
        var j :| 0 <= j < |db.users.rows| && db.users.rows[j] == u;
        var i :| 0 <= i < |us| && us[i] == u;
        assert ps[i] == ProfileOf(u);
      }
      Ok(StatusOk, ps)
  }

  /** `user`: every teacher and student account. */
  function ListUsers(db: Db, caller: Row<User>): (r: Reply<seq<Profile>>)
    ensures !IsAdmin(caller) ==> r == Err(StatusForbidden)
    ensures IsAdmin(caller) ==> r.Ok? && r.code == StatusOk
    ensures r.Ok? ==> forall i :: 0 <= i < |r.body| ==>
      exists u :: u in db.users.rows && u.data.role in {RoleEnseignant, RoleEtudiant} && r.body[i] == ProfileOf(u)
    ensures r.Ok? ==> forall i :: 0 <= i < |r.body| ==> r.body[i].role != RoleAdmin
    ensures r.Ok? ==> forall u :: u in db.users.rows && u.data.role in {RoleEnseignant, RoleEtudiant} ==> ProfileOf(u) in r.body
    ensures r.Ok? ==> |r.body| == Count(db.users.rows, RoleIn({RoleEnseignant, RoleEtudiant}))
  {
    var r := ListRoles(db, caller, {RoleEnseignant, RoleEtudiant});
    if r.Ok? then
      forall i | 0 <= i < |r.body|
        ensures exists u :: u in db.users.rows && u.data.role in {RoleEnseignant, RoleEtudiant} && r.body[i] == ProfileOf(u)
      {
        var u :| u in db.users.rows && u.data.role in {RoleEnseignant, RoleEtudiant} && r.body[i] == ProfileOf(u);
      }
      r
    else r
  }

  /** `teacher`: every teacher account. */
  function ListTeachers(db: Db, caller: Row<User>): (r: Reply<seq<Profile>>)
    ensures !IsAdmin(caller) ==> r == Err(StatusForbidden)
    ensures IsAdmin(caller) ==> r.Ok? && r.code == StatusOk
    ensures r.Ok? ==> forall i :: 0 <= i < |r.body| ==>
      exists u :: u in db.users.rows && u.data.role == RoleEnseignant && r.body[i] == ProfileOf(u)
    ensures r.Ok? ==> forall i :: 0 <= i < |r.body| ==> r.body[i].role == RoleEnseignant
    ensures r.Ok? ==> forall u :: u in db.users.rows && u.data.role == RoleEnseignant ==> ProfileOf(u) in r.body
    ensures r.Ok? ==> |r.body| == Count(db.users.rows, RoleIn({RoleEnseignant}))
  {
    var r := ListRoles(db, caller, {RoleEnseignant});
    if r.Ok? then
      forall i | 0 <= i < |r.body|
        ensures exists u :: u in db.users.rows && u.data.role == RoleEnseignant && r.body[i] == ProfileOf(u)
      {
        var u :| u in db.users.rows && u.data.role in {RoleEnseignant} && r.body[i] == ProfileOf(u);
      }
      r
    else r
  }

  // ---------------------------------------------------------------------
  // Properties

  /** An address registers once: the same registration again is refused
      and writes nothing. */
  lemma RegisterTwiceConflicts(db: Db, req: Registration, isEmail: string -> bool)
    requires Register(db, req, isEmail).reply.Ok?
    ensures var after := Register(db, req, isEmail).db;
      Register(after, req, isEmail) == Refuse(after, StatusUnprocessable)
  {
    var after := Register(db, req, isEmail).db;
    assert after.users.rows[|db.users.rows|].data.email == req.email.value;
  }

  /** Logging in with the address and password just registered answers
      the profile registration answered, which is also the new account's
      `actor` profile. */
  lemma RegisterThenLogin(db: Db, req: Registration, isEmail: string -> bool, matches: (nat, string) -> bool)
    requires WellFormed(db) && ValidRegistration(db, req, isEmail)
    requires matches(db.users.next, req.password.value)
    ensures var created := Register(db, req, isEmail);
      && Login(created.db, Credentials(req.email, req.password), isEmail, matches) == Ok(StatusOk, created.reply.body)
      && Actor(created.db.users.rows[|db.users.rows|]) == created.reply.body
  {
    var created := Register(db, req, isEmail);
    var row := created.db.users.rows[|db.users.rows|];
    assert row in created.db.users.rows;
    var found := AccountOf(created.db, req.email.value);
    assert found.Some?;
    assert found.value == row;
  }

  /** Every teacher listed by `teacher` is listed by `user`. */
  lemma TeachersAmongUsers(db: Db, caller: Row<User>)
    requires IsAdmin(caller)
    ensures forall i :: 0 <= i < |ListTeachers(db, caller).body| ==> ListTeachers(db, caller).body[i] in ListUsers(db, caller).body
  {
    var ts := ListTeachers(db, caller).body;
    assert ListTeachers(db, caller) == ListRoles(db, caller, {RoleEnseignant});
    forall i | 0 <= i < |ts|
      ensures ts[i] in ListUsers(db, caller).body
    {
      var r := ListRoles(db, caller, {RoleEnseignant});
      assert ts[i] == r.body[i];
      assert exists u :: u in db.users.rows && u.data.role in {RoleEnseignant} && r.body[i] == ProfileOf(u);
      var u :| u in db.users.rows && u.data.role in {RoleEnseignant} && ts[i] == ProfileOf(u);
    }
  }
}

=== FILE: class_teacher.dfy ===
/** ClassTeacherController: the associations between classes and their
    teachers, managed by administrators. */
module ClassTeachers {

  import opened Optional
  import opened Tables
  import opened Schema
  import opened Http

  /** The body of a store request; `None` for a missing field. */
  datatype PairRequest = PairRequest(classId: Option<nat>, teacherId: Option<nat>)

  /** `class_id: required|exists:classes,id`, `teacher_id: required|exists:users,id`. */
  predicate ValidRequest(db: Db, req: PairRequest) {
    RequiredKey(db.classes, req.classId) && RequiredKey(db.users, req.teacherId)
  }

  /** `index`: every association, to administrators only. */
  function Index(db: Db, caller: Row<User>): (r: Reply<seq<Row<ClassTeacher>>>)
    ensures !IsAdmin(caller) ==> r == Err(StatusForbidden)
    ensures IsAdmin(caller) ==> r == Ok(StatusOk, db.classTeacher.rows)
  {
    if !IsAdmin(caller) then Err(StatusForbidden) else Ok(StatusOk, db.classTeacher.rows)
  }

  /** Appending a pair that is not linked yet keeps the invariants. */
  lemma AddKeepsWellFormed(db: Db, pair: ClassTeacher)
    requires WellFormed(db)
    requires !Linked(db, pair.classId, pair.teacherId)
    ensures WellFormed(db.(classTeacher := Insert(db.classTeacher, pair)))
  {
    forall a | a in db.classTeacher.rows
      ensures a.data != pair
    {
      var i :| 0 <= i < |db.classTeacher.rows| && db.classTeacher.rows[i] == a;
    }
  }

  /** `store`: role check, validation, the user must be a teacher
      (`enseignant`), and the pair must not exist yet. */
  function Store(db: Db, caller: Row<User>, req: PairRequest): (r: Outcome<Row<ClassTeacher>>)
    ensures r.reply.Err? ==> r.db == db
    ensures !IsAdmin(caller) ==> r.reply == Err(StatusForbidden)
    ensures IsAdmin(caller) && !ValidRequest(db, req) ==> r.reply == Err(StatusUnprocessable)
    ensures IsAdmin(caller) && ValidRequest(db, req) && Find(db.users, req.teacherId.value).value.data.role != RoleEnseignant ==>
      r.reply == Err(StatusUnprocessable)
    ensures IsAdmin(caller) && ValidRequest(db, req) && Linked(db, req.classId.value, req.teacherId.value) ==>
      r.reply == Err(StatusUnprocessable)
    ensures r.reply.Ok? <==>
      && IsAdmin(caller) && ValidRequest(db, req)
      && Find(db.users, req.teacherId.value).value.data.role == RoleEnseignant
      && !Linked(db, req.classId.value, req.teacherId.value)
    ensures r.reply.Ok? ==>
      && r.reply.code == StatusCreated
      && r.reply.body == Row(db.classTeacher.next, ClassTeacher(req.classId.value, req.teacherId.value))
      && r.db == db.(classTeacher := r.db.classTeacher)
      && r.db.classTeacher.rows == db.classTeacher.rows + [r.reply.body]
      && IsTeacherOf(r.db, req.classId.value, req.teacherId.value)
    ensures WellFormed(db) ==> WellFormed(r.db)
  {
    if !IsAdmin(caller) then Refuse(db, StatusForbidden)
    else if !ValidRequest(db, req) then Refuse(db, StatusUnprocessable)
    else if Find(db.users, req.teacherId.value).value.data.role != RoleEnseignant then Refuse(db, StatusUnprocessable)
    else if Linked(db, req.classId.value, req.teacherId.value) then Refuse(db, StatusUnprocessable)
    else
      var pair := ClassTeacher(req.classId.value, req.teacherId.value);
      var after := db.(classTeacher := Insert(db.classTeacher, pair));
      assert after.classTeacher.rows[|db.classTeacher.rows|].data == pair;
      if WellFormed(db) then
        AddKeepsWellFormed(db, pair);
        Outcome(Ok(StatusCreated, Row(db.classTeacher.next, pair)), after)
      else Outcome(Ok(StatusCreated, Row(db.classTeacher.next, pair)), after)
  }

  /** `show`: one association; the route binding answers 404 first. */
  function Show(db: Db, caller: Row<User>, id: nat): (r: Reply<Row<ClassTeacher>>)
    ensures Find(db.classTeacher, id).None? ==> r == Err(StatusNotFound)
    ensures Find(db.classTeacher, id).Some? && !IsAdmin(caller) ==> r == Err(StatusForbidden)
    ensures r.Ok? <==> Find(db.classTeacher, id).Some? && IsAdmin(caller)
    ensures r.Ok? ==> r.code == StatusOk && r.body in db.classTeacher.rows && r.body.id == id && IsAdmin(caller)
  {
    match Find(db.classTeacher, id)
    case None => Err(StatusNotFound)
    case Some(a) => if !IsAdmin(caller) then Err(StatusForbidden) else Ok(StatusOk, a)
  }

  /** `destroy`: binding 404, role check, then exactly that association is
      gone. */
  function Destroy(db: Db, caller: Row<User>, id: nat): (r: Outcome<()>)
    ensures r.reply.Err? ==> r.db == db
    ensures Find(db.classTeacher, id).None? ==> r.reply == Err(StatusNotFound)
    ensures Find(db.classTeacher, id).Some? && !IsAdmin(caller) ==> r.reply == Err(StatusForbidden)
    ensures r.reply.Ok? <==> Find(db.classTeacher, id).Some? && IsAdmin(caller)
    ensures r.reply.Ok? ==>
      && r.reply.code == StatusNoContent
      && r.db == db.(classTeacher := r.db.classTeacher)
      && Find(r.db.classTeacher, id).None?
      && (forall i :: 0 <= i < |db.classTeacher.rows| && db.classTeacher.rows[i].id != id ==>
            db.classTeacher.rows[i] in r.db.classTeacher.rows)
      && (forall i :: 0 <= i < |r.db.classTeacher.rows| ==> r.db.classTeacher.rows[i] in db.classTeacher.rows)
    ensures r.reply.Ok? && Valid(db.classTeacher) ==> |r.db.classTeacher.rows| == |db.classTeacher.rows| - 1
    ensures WellFormed(db) ==> WellFormed(r.db)
  {
    if Find(db.classTeacher, id).None? then Refuse(db, StatusNotFound)
    else if !IsAdmin(caller) then Refuse(db, StatusForbidden)
    else
      DeleteSubset(db.classTeacher, id);
      Outcome(Ok(StatusNoContent, ()), db.(classTeacher := Delete(db.classTeacher, id)))
  }

  // ---------------------------------------------------------------------
  // The eager load as written

  /* `index`, `store` and `show` eager-load the relations `classe` and
     `enseignant` of an association, but the association model defines
     `classe` and `teacher` only (app/Models/ClassTeacher.php:15-26).
     Loading the undefined relation throws, and these actions have no
     catch: the framework answers 500. `Index`, `Store` and `Show` above
     are the actions with the relation they evidently mean, `teacher`. */

  /** `index` as written: the load only runs when there are rows. */
  function IndexAsWritten(db: Db, caller: Row<User>): (r: Reply<seq<Row<ClassTeacher>>>)
    ensures !IsAdmin(caller) ==> r == Err(StatusForbidden)
    ensures IsAdmin(caller) && db.classTeacher.rows == [] ==> r == Ok(StatusOk, [])
    ensures IsAdmin(caller) && db.classTeacher.rows != [] ==> r == Err(StatusServerError)
    ensures r.Ok? ==> r == Index(db, caller)
  {
    if !IsAdmin(caller) then Err(StatusForbidden)
    else if db.classTeacher.rows != [] then Err(StatusServerError)
    else Ok(StatusOk, [])
  }

  /** `store` as written: every refusal is the intended one, but an
      accepted request creates the association and then answers 500. */
  function StoreAsWritten(db: Db, caller: Row<User>, req: PairRequest): (r: Outcome<Row<ClassTeacher>>)
    ensures r.reply.Err?
    ensures r.reply.code == StatusServerError <==>
      && IsAdmin(caller) && ValidRequest(db, req)
      && Find(db.users, req.teacherId.value).value.data.role == RoleEnseignant
      && !Linked(db, req.classId.value, req.teacherId.value)
    ensures r.reply.code != StatusServerError ==> r.db == db
    ensures r.reply.code == StatusServerError ==>
      && r.db == db.(classTeacher := r.db.classTeacher)
      && r.db.classTeacher.rows == db.classTeacher.rows + [Row(db.classTeacher.next, ClassTeacher(req.classId.value, req.teacherId.value))]
      && IsTeacherOf(r.db, req.classId.value, req.teacherId.value)
    ensures WellFormed(db) ==> WellFormed(r.db)
  {
    var intended := Store(db, caller, req);
    if intended.reply.Err? then intended else Outcome(Err(StatusServerError), intended.db)
  }

  /** `show` as written: the binding and the role check pass or refuse as
      intended; every association that would be shown answers 500. */
  function ShowAsWritten(db: Db, caller: Row<User>, id: nat): (r: Reply<Row<ClassTeacher>>)
    ensures Find(db.classTeacher, id).None? ==> r == Err(StatusNotFound)
    ensures Find(db.classTeacher, id).Some? && !IsAdmin(caller) ==> r == Err(StatusForbidden)
    ensures Find(db.classTeacher, id).Some? && IsAdmin(caller) ==> r == Err(StatusServerError)
  {
    match Find(db.classTeacher, id)
    case None => Err(StatusNotFound)
    case Some(_) => if !IsAdmin(caller) then Err(StatusForbidden) else Err(StatusServerError)
  }

  /** Where the actions as written and as intended part: for an
      administrator and an existing association, the intended `index` and
      `show` answer 200 while the written ones answer 500. */
  lemma EagerLoadFails(db: Db, caller: Row<User>, id: nat)
    requires IsAdmin(caller) && Find(db.classTeacher, id).Some?
    ensures Index(db, caller).Ok? && IndexAsWritten(db, caller) == Err(StatusServerError)
    ensures Show(db, caller, id) == Ok(StatusOk, Find(db.classTeacher, id).value)
    ensures ShowAsWritten(db, caller, id) == Err(StatusServerError)
  {
    assert Find(db.classTeacher, id).value in db.classTeacher.rows;
  }

  /** A client of `store` as written never sees the association created:
      the first request answers 500 after writing it, and sending it again
      is refused as a duplicate. */
  lemma StoreAsWrittenRetry(db: Db, caller: Row<User>, req: PairRequest)
    requires StoreAsWritten(db, caller, req).reply.code == StatusServerError
    ensures Store(db, caller, req).reply.Ok?
    ensures var after := StoreAsWritten(db, caller, req).db;
      StoreAsWritten(after, caller, req) == Refuse(after, StatusUnprocessable)
  {
    StoreTwiceConflicts(db, caller, req);
  }

  // ---------------------------------------------------------------------
  // Properties

  /** Assigning the same teacher to the same class twice: the second
      request is refused and writes nothing. */
  lemma StoreTwiceConflicts(db: Db, caller: Row<User>, req: PairRequest)
    requires Store(db, caller, req).reply.Ok?
    ensures Store(Store(db, caller, req).db, caller, req) == Refuse(Store(db, caller, req).db, StatusUnprocessable)
  {
    var after := Store(db, caller, req).db;
    assert after.classTeacher.rows[|db.classTeacher.rows|].data == ClassTeacher(req.classId.value, req.teacherId.value);
  }

  /** With one association per pair, deleting an association unlinks its
      teacher from its class. */
  lemma DestroyUnlinks(db: Db, caller: Row<User>, id: nat)
    requires WellFormed(db) && IsAdmin(caller) && Find(db.classTeacher, id).Some?
    ensures var pair := Find(db.classTeacher, id).value.data;
      !Linked(Destroy(db, caller, id).db, pair.classId, pair.teacherId)
  {
    var a := Find(db.classTeacher, id).value;
    var after := Destroy(db, caller, id).db;
    forall i | 0 <= i < |after.classTeacher.rows|
      ensures after.classTeacher.rows[i].data != a.data
    {
      var b := after.classTeacher.rows[i];
      assert b in db.classTeacher.rows && b.id != id;
    }
  }
}

=== FILE: classe.dfy ===
/** ClasseController: classes, managed by administrators; listings carry
    each class's number of students. */
module Classes {

  import opened Optional
  import opened Tally
  import opened Tables
  import opened Schema
  import opened Http

  /** The body of a store or update request. `name` is `None` when missing;
      `description` is `None` when missing or null. */
  datatype ClassRequest = ClassRequest(name: Option<string>, description: Option<string>)

  /** `name: required|string|max:255`; `description: nullable|string`. */
  predicate ValidRequest(req: ClassRequest) {
    RequiredString(req.name, 255)
  }

  /** `index`: every class with its `students_count`. */
  function Index(db: Db, caller: Row<User>): (r: Reply<seq<CountedClass>>)
    ensures !IsAdmin(caller) ==> r == Err(StatusForbidden)
    ensures IsAdmin(caller) ==> r.Ok? && r.code == StatusOk
    ensures r.Ok? ==> |r.body| == |db.classes.rows|
    ensures r.Ok? ==> forall i :: 0 <= i < |r.body| ==>
      r.body[i].classe == db.classes.rows[i] &&
      r.body[i].studentsCount == |StudentsOf(db, db.classes.rows[i].id)|
  {
    if !IsAdmin(caller) then Err(StatusForbidden)
    else Ok(StatusOk, WithStudentCounts(db, db.classes.rows))
  }

  /** `store`: role check, validation, then one new class. */
  function Store(db: Db, caller: Row<User>, req: ClassRequest): (r: Outcome<Row<Classe>>)
    ensures r.reply.Err? ==> r.db == db
    ensures !IsAdmin(caller) ==> r.reply == Err(StatusForbidden)
    ensures IsAdmin(caller) && !ValidRequest(req) ==> r.reply == Err(StatusUnprocessable)
    ensures r.reply.Ok? <==> IsAdmin(caller) && ValidRequest(req)
    ensures r.reply.Ok? ==>
      && r.reply.code == StatusCreated
      && r.reply.body == Row(db.classes.next, Classe(req.name, req.description))
      && r.db == db.(classes := r.db.classes)
      && r.db.classes.rows == db.classes.rows + [r.reply.body]
    ensures WellFormed(db) ==> WellFormed(r.db)
  {
    if !IsAdmin(caller) then Refuse(db, StatusForbidden)
    else if !ValidRequest(req) then Refuse(db, StatusUnprocessable)
    else
      var c := Classe(req.name, req.description);
      Outcome(Ok(StatusCreated, Row(db.classes.next, c)), db.(classes := Insert(db.classes, c)))
  }

  /** `show`: one class with its `students_count`; the route binding
      answers 404 first. */
  function Show(db: Db, caller: Row<User>, id: nat): (r: Reply<CountedClass>)
    ensures Find(db.classes, id).None? ==> r == Err(StatusNotFound)
    ensures Find(db.classes, id).Some? && !IsAdmin(caller) ==> r == Err(StatusForbidden)
    ensures r.Ok? <==> Find(db.classes, id).Some? && IsAdmin(caller)
    ensures r.Ok? ==>
      && r.code == StatusOk && IsAdmin(caller)
      && r.body.classe in db.classes.rows && r.body.classe.id == id
      && r.body.studentsCount == |StudentsOf(db, id)|
  {
    match Find(db.classes, id)
    case None => Err(StatusNotFound)
    case Some(c) => if !IsAdmin(caller) then Err(StatusForbidden) else Ok(StatusOk, CountedClass(c, |StudentsOf(db, id)|))
  }

  /** `update`: binding 404, role check, validation; then only that class's
      name and description change. */
  function Update(db: Db, caller: Row<User>, id: nat, req: ClassRequest): (r: Outcome<Row<Classe>>)
    ensures r.reply.Err? ==> r.db == db
    ensures Find(db.classes, id).None? ==> r.reply == Err(StatusNotFound)
    ensures Find(db.classes, id).Some? && !IsAdmin(caller) ==> r.reply == Err(StatusForbidden)
    ensures Find(db.classes, id).Some? && IsAdmin(caller) && !ValidRequest(req) ==> r.reply == Err(StatusUnprocessable)
    ensures r.reply.Ok? <==> Find(db.classes, id).Some? && IsAdmin(caller) && ValidRequest(req)
    ensures r.reply.Ok? ==>
      && r.reply.code == StatusOk
      && r.reply.body == Row(id, Classe(req.name, req.description))
      && r.db == db.(classes := r.db.classes)
      && r.db.classes.next == db.classes.next
      && |r.db.classes.rows| == |db.classes.rows|
    ensures r.reply.Ok? && Valid(db.classes) ==> forall i :: 0 <= i < |db.classes.rows| ==>
      r.db.classes.rows[i] == (if db.classes.rows[i].id == id then r.reply.body else db.classes.rows[i])
    ensures WellFormed(db) ==> WellFormed(r.db)
  {
    if Find(db.classes, id).None? then Refuse(db, StatusNotFound)
    else if !IsAdmin(caller) then Refuse(db, StatusForbidden)
    else if !ValidRequest(req) then Refuse(db, StatusUnprocessable)
    else
      var c := Classe(req.name, req.description);
      Outcome(Ok(StatusOk, Row(id, c)), db.(classes := Replace(db.classes, id, c)))
  }

  /** `destroy`: binding 404, role check, then exactly that class is gone.
      Students keep their `class_id`. */
  function Destroy(db: Db, caller: Row<User>, id: nat): (r: Outcome<()>)
    ensures r.reply.Err? ==> r.db == db
    ensures Find(db.classes, id).None? ==> r.reply == Err(StatusNotFound)
    ensures Find(db.classes, id).Some? && !IsAdmin(caller) ==> r.reply == Err(StatusForbidden)
    ensures r.reply.Ok? <==> Find(db.classes, id).Some? && IsAdmin(caller)
    ensures r.reply.Ok? ==>
      && r.reply.code == StatusNoContent
      && r.db == db.(classes := r.db.classes)
      && Find(r.db.classes, id).None?
      && (forall i :: 0 <= i < |db.classes.rows| && db.classes.rows[i].id != id ==> db.classes.rows[i] in r.db.classes.rows)
      && (forall i :: 0 <= i < |r.db.classes.rows| ==> r.db.classes.rows[i] in db.classes.rows)
    ensures r.reply.Ok? && Valid(db.classes) ==> |r.db.classes.rows| == |db.classes.rows| - 1
    ensures WellFormed(db) ==> WellFormed(r.db)
  {
    if Find(db.classes, id).None? then Refuse(db, StatusNotFound)
    else if !IsAdmin(caller) then Refuse(db, StatusForbidden)
    else Outcome(Ok(StatusNoContent, ()), db.(classes := Delete(db.classes, id)))
  }

  // ---------------------------------------------------------------------
  // Properties

  /** A class just created is shown with what was stored and no students. */
  lemma StoreThenShow(db: Db, caller: Row<User>, req: ClassRequest)
    requires WellFormed(db) && Store(db, caller, req).reply.Ok?
    ensures var created := Store(db, caller, req);
      Show(created.db, caller, created.reply.body.id) == Ok(StatusOk, CountedClass(created.reply.body, 0))
  {
    var created := Store(db, caller, req);
    var after := created.db;
    var id := created.reply.body.id;
    assert after.classes.rows[|db.classes.rows|] == created.reply.body;
    forall i | 0 <= i < |db.students.rows|
      ensures !KeyIs(StudentClass, Some(id))(db.students.rows[i])
    {
      var s := db.students.rows[i];
      assert s in db.students.rows;
      assert s.data.classId.Some? ==> s.data.classId.value < db.classes.next;
      assert StudentClass(s) != Some(id);
    }
    FilterNone(db.students.rows, KeyIs(StudentClass, Some(id)));
  }

  /** Updating a class twice with the same request leaves the same state
      as updating it once. */
  lemma UpdateIdempotent(db: Db, caller: Row<User>, id: nat, req: ClassRequest)
    requires Valid(db.classes)
    ensures var once := Update(db, caller, id, req);
      Update(once.db, caller, id, req) == once
  {
    var once := Update(db, caller, id, req);
    if once.reply.Ok? {
      var c := Classe(req.name, req.description);
      ReplaceAgain(db.classes, id, c);
      assert once.db == db.(classes := Replace(db.classes, id, c));
    }
  }
}

=== FILE: matricule.dfy ===
/** Student matricules: `"IUT-"` followed by the decimal number left-padded
    with zeros to six digits. The next matricule is derived from the student
    with the highest id: strip every `"IUT-"`, cast what is left to an
    integer, add one, format. */
module Matricules {

  import opened Optional
  import opened Tables
  import opened Schema

  const Prefix := "IUT-"
  const Width: nat := 6

  predicate IsDigit(c: char) {
    '0' <= c <= '9'
  }

  predicate AllDigits(s: string) {
    forall i :: 0 <= i < |s| ==> IsDigit(s[i])
  }

  function DigitChar(d: nat): (c: char)
    requires d < 10
    ensures IsDigit(c)
  {
    ('0' as int + d) as char
  }

  function DigitValue(c: char): (d: nat)
    requires IsDigit(c)
    ensures d < 10
  {
    c as int - '0' as int
  }

  /** Decimal text of `n`, without leading zeros (PHP's int-to-string). */
  function Digits(n: nat): (s: string)
    ensures |s| > 0 && AllDigits(s)
  {
    if n < 10 then [DigitChar(n)] else Digits(n / 10) + [DigitChar(n % 10)]
  }

  /** `k` copies of `c`. */
  function Repeat(c: char, k: nat): (s: string)
    ensures |s| == k
    ensures forall i :: 0 <= i < k ==> s[i] == c
  {
    if k == 0 then [] else [c] + Repeat(c, k - 1)
  }

  /** `str_pad($s, $width, $c, STR_PAD_LEFT)`: pad on the left up to
      `width`; a longer string is left alone. */
  function PadLeft(s: string, width: nat, c: char): (r: string)
    ensures |r| == if |s| < width then width else |s|
    ensures r[|r| - |s|..] == s
    ensures forall i :: 0 <= i < |r| - |s| ==> r[i] == c
  {
    if |s| < width then Repeat(c, width - |s|) + s else s
  }

  /** `'IUT-' . str_pad($n, 6, '0', STR_PAD_LEFT)`: the prefix, then at
      least six digits whose value is `n`. */
  function Format(n: nat): (m: string)
    ensures |m| >= |Prefix| + Width && m[..|Prefix|] == Prefix
    ensures AllDigits(m[|Prefix|..]) && Value(m[|Prefix|..]) == n
  {
    var d := Digits(n);
    DigitsValue(n);
    if |d| < Width then
      ValueLeadingZeros(Width - |d|, d);
      Prefix + PadLeft(d, Width, '0')
    else Prefix + PadLeft(d, Width, '0')
  }

  /** An occurrence of the prefix starts at index `i` of `s`. */
  predicate TagAt(s: string, i: nat) {
    i + |Prefix| <= |s| && s[i..i + |Prefix|] == Prefix
  }

  /** `str_replace('IUT-', '', $s)`: every occurrence removed, scanning left
      to right without rescanning the result. */
  function RemoveTags(s: string): (r: string)
    ensures |r| <= |s|
    ensures TagAt(s, 0) ==> |r| <= |s| - |Prefix|
    ensures (forall i: nat :: !TagAt(s, i)) ==> r == s
    decreases |s|
  {
    if |s| >= |Prefix| && s[..|Prefix|] == Prefix then
      assert TagAt(s, 0);
      RemoveTags(s[|Prefix|..])
    else if s == [] then []
    else
      TagShift(s);
      [s[0]] + RemoveTags(s[1..])
  }

  /** An occurrence in the tail of `s` is an occurrence in `s`. */
  lemma TagShift(s: string)
    requires s != []
    ensures forall i: nat :: TagAt(s[1..], i) ==> TagAt(s, i + 1)
  {
    forall i: nat | TagAt(s[1..], i)
      ensures TagAt(s, i + 1)
    {
      assert s[1..][i..i + |Prefix|] == s[i + 1..i + 1 + |Prefix|];
    }
  }

  /** Value of a digit string, most significant digit first. */
  function Value(s: string): nat
    requires AllDigits(s)
  {
    if s == [] then 0 else Value(s[..|s| - 1]) * 10 + DigitValue(s[|s| - 1])
  }

  /** The leading run of digits of `s`. */
  function LeadingDigits(s: string): (r: string)
    ensures AllDigits(r) && |r| <= |s| && r == s[..|r|]
    ensures |r| < |s| ==> !IsDigit(s[|r|])
  {
    if s == [] || !IsDigit(s[0]) then [] else [s[0]] + LeadingDigits(s[1..])
  }

  /** PHP's `(int)` on a string, for strings without sign, blank or exponent:
      the value of the leading digits, 0 when there are none. */
  function IntCast(s: string): (v: nat)
    ensures exists k :: 0 <= k <= |s| && AllDigits(s[..k]) && (k == |s| || !IsDigit(s[k])) && v == Value(s[..k])
    ensures (s == [] || !IsDigit(s[0])) ==> v == 0
    ensures AllDigits(s) ==> v == Value(s)
  {
    var d := LeadingDigits(s);
    if AllDigits(s) then
      LeadingDigitsOfDigits(s);
      Value(d)
    else Value(d)
  }

  /** The number a matricule carries: `(int) str_replace('IUT-', '', $m)`. */
  function Number(m: string): (v: nat)
    ensures AllDigits(m) ==> v == Value(m)
    ensures |m| >= |Prefix| && m[..|Prefix|] == Prefix && AllDigits(m[|Prefix|..]) ==> v == Value(m[|Prefix|..])
  {
    var t := RemoveTags(m);
    if AllDigits(m) then
      RemoveTagsOfDigits(m);
      IntCast(t)
    else if |m| >= |Prefix| && m[..|Prefix|] == Prefix && AllDigits(m[|Prefix|..]) then
      RemoveTagsOfDigits(m[|Prefix|..]);
      IntCast(t)
    else IntCast(t)
  }

  /** `$nextNumber`: one past the number of the student with the highest id,
      or 1 when there is no student. */
  function NextNumber(students: seq<Row<Student>>): (n: nat)
    ensures n >= 1
    ensures students == [] ==> n == 1
    ensures students != [] ==> exists i :: 0 <= i < |students| && n == Number(students[i].data.matricule) + 1
    ensures students != [] ==> exists i ::
      && 0 <= i < |students|
      && (forall j :: 0 <= j < |students| ==> students[j].id <= students[i].id)
      && n == Number(students[i].data.matricule) + 1
  {
    match Highest(students)
    case None => 1
    case Some(s) => Number(s.data.matricule) + 1
  }

  /** The matricule the next created student receives. */
  function NextMatricule(students: seq<Row<Student>>): (m: string)
    ensures Number(m) == NextNumber(students)
    ensures |m| >= |Prefix| && m[..|Prefix|] == Prefix
    ensures NextNumber(students) < 1000000 ==> |m| == 10 && AllDigits(m[|Prefix|..])
    ensures students == [] ==> m == "IUT-000001"
  {
    var n := NextNumber(students);
    RoundTrip(n);
    if n < 1000000 then FormatShape(n); Format(n) else Format(n)
  }

  // ---------------------------------------------------------------------
  // Round trip

  lemma {:induction false} DigitsValue(n: nat)
    ensures Value(Digits(n)) == n
  {
    if n >= 10 {
      DigitsValue(n / 10);
      var s := Digits(n);
      assert s[..|s| - 1] == Digits(n / 10);
    }
  }

  lemma {:induction false} ValueOfZeros(k: nat)
    ensures Value(Repeat('0', k)) == 0
  {
    if k > 0 {
      var z := Repeat('0', k);
      assert z[..k - 1] == Repeat('0', k - 1);
      ValueOfZeros(k - 1);
    }
  }

  /** Leading zeros do not change a value. */
  lemma {:induction false} ValueLeadingZeros(k: nat, s: string)
    requires AllDigits(s)
    ensures AllDigits(Repeat('0', k) + s)
    ensures Value(Repeat('0', k) + s) == Value(s)
  {
    var z := Repeat('0', k);
    if s == [] {
      assert z + s == z;
      ValueOfZeros(k);
    } else {
      var init := s[..|s| - 1];
      ValueLeadingZeros(k, init);
      assert (z + s)[..|z + s| - 1] == z + init;
    }
  }

  lemma {:induction false} LeadingDigitsOfDigits(s: string)
    requires AllDigits(s)
    ensures LeadingDigits(s) == s
  {
    if s != [] {
      LeadingDigitsOfDigits(s[1..]);
    }
  }

  lemma {:induction false} RemoveTagsOfDigits(s: string)
    requires AllDigits(s)
    ensures RemoveTags(s) == s
  {
    if s != [] {
      if |s| >= |Prefix| {
        assert s[..|Prefix|][0] == s[0] != Prefix[0];
      }
      RemoveTagsOfDigits(s[1..]);
    }
  }

  /** Parsing a formatted matricule gives back its number, for every number:
      the contracts of `Format` and `Number` meet on the digits after the
      prefix. */
  lemma RoundTrip(n: nat)
    ensures Number(Format(n)) == n
  {
    var m := Format(n);
    assert Value(m[|Prefix|..]) == n;
  }

  /** Below a million the number takes at most six digits. */
  lemma {:induction false} DigitsLength(n: nat)
    requires n < 1000000
    ensures |Digits(n)| <= 6
  {
    if n >= 10 {
      assert n / 10 < 100000;
      DigitsShorter(n / 10, 100000, 5);
    }
  }

  lemma {:induction false} DigitsShorter(n: nat, bound: nat, k: nat)
    requires n < bound && k >= 1 && bound == Pow10(k)
    ensures |Digits(n)| <= k
  {
    if n >= 10 {
      assert Pow10(1) == 10;
      assert k != 1;
      assert bound == 10 * Pow10(k - 1);
      DigitsShorter(n / 10, Pow10(k - 1), k - 1);
    }
  }

  function Pow10(k: nat): nat {
    if k == 0 then 1 else 10 * Pow10(k - 1)
  }

  /** Below a million a matricule is `"IUT-"` and exactly six digits. */
  lemma FormatShape(n: nat)
    requires n < 1000000
    ensures |Format(n)| == 10
    ensures Format(n)[..|Prefix|] == Prefix
    ensures AllDigits(Format(n)[|Prefix|..])
  {
    DigitsLength(n);
    assert Format(n)[|Prefix|..] == PadLeft(Digits(n), Width, '0');
  }

  /** A student created with the generated matricule and a larger id than
      every existing one moves the counter on by exactly one, so successive
      creations carry strictly increasing numbers. */
  lemma NextNumberAdvances(students: seq<Row<Student>>, created: Row<Student>)
    requires forall i :: 0 <= i < |students| ==> students[i].id < created.id
    requires Number(created.data.matricule) == NextNumber(students)
    ensures NextNumber(students + [created]) == NextNumber(students) + 1
  {
    var all := students + [created];
    assert all[..|all| - 1] == students;
    match Highest(students)
    case None =>
    case Some(h) =>
      assert h in students;
  }
}

=== FILE: notifications.dfy ===
/** Notifications: the fan-out that attendance writes trigger, and the
    NotificationController actions that list a user's notifications and mark
    one as read. */
module Notifications {

  import opened Optional
  import opened Tally
  import opened Tables
  import opened Schema
  import opened Http

  /** `after` is `before` followed by one unread notification of `msg` per
      recipient, in recipient order. */
  predicate Notified(before: Table<Notification>, after: Table<Notification>, recipients: seq<Row<User>>, msg: Message) {
    && |after.rows| == |before.rows| + |recipients|
    && after.rows[..|before.rows|] == before.rows
    && forall i :: 0 <= i < |recipients| ==> after.rows[|before.rows| + i].data == Notification(recipients[i].id, msg, false)
  }

  /** One unread notification per recipient, appended in recipient order. */
  function NotifyAll(t: Table<Notification>, recipients: seq<Row<User>>, msg: Message): (r: Table<Notification>)
    ensures Notified(t, r, recipients, msg)
    ensures Valid(t) ==> Valid(r)
  {
    if recipients == [] then t
    else
      var init := recipients[..|recipients| - 1];
      var last := recipients[|recipients| - 1];
      var before := NotifyAll(t, init, msg);
      assert forall i :: 0 <= i < |init| ==> init[i] == recipients[i];
      Insert(before, Notification(last.id, msg, false))
  }

  /** Holds of the notifications addressed to the user. */
  function AddressedTo(userId: nat): Row<Notification> -> bool {
    (n: Row<Notification>) => n.data.userId == userId
  }

  /** `AllNotifications`: the caller's notifications and no one else's,
      newest first. */
  function AllNotifications(db: Db, caller: Row<User>): (r: Reply<seq<Row<Notification>>>)
    ensures r.Ok? && r.code == StatusOk
    ensures forall i :: 0 <= i < |r.body| ==> r.body[i] in db.notifications.rows && r.body[i].data.userId == caller.id
    ensures forall i :: 0 <= i < |db.notifications.rows| && db.notifications.rows[i].data.userId == caller.id ==>
      db.notifications.rows[i] in r.body
    ensures Valid(db.notifications) ==> forall i, j :: 0 <= i < j < |r.body| ==> r.body[i].id > r.body[j].id
  {
    var mine := Filter(db.notifications.rows, AddressedTo(caller.id));
    if Valid(db.notifications) then
      FilterAscending(db.notifications.rows, AddressedTo(caller.id));
      ReverseDescending(mine);
      ReverseMembers(mine);
      Ok(StatusOk, Reverse(mine))
    else
      ReverseMembers(mine);
      Ok(StatusOk, Reverse(mine))
  }

  /** The notification `id` if the caller owns it. */
  function OwnedNotification(db: Db, caller: Row<User>, id: nat): (r: Option<Row<Notification>>)
    ensures r.Some? ==> r.value in db.notifications.rows && r.value.id == id && r.value.data.userId == caller.id
    ensures r.None? ==> forall i :: 0 <= i < |db.notifications.rows| && db.notifications.rows[i].id == id ==>
      (Valid(db.notifications) ==> db.notifications.rows[i].data.userId != caller.id)
  {
    match Find(db.notifications, id)
    case Some(n) => if n.data.userId == caller.id then Some(n) else None
    case None => None
  }

  /** `markAsRead`: a missing id or another user's notification is not
      found and changes nothing; otherwise that one row becomes read. */
  function MarkAsRead(db: Db, caller: Row<User>, id: nat): (r: Outcome<()>)
    ensures r.reply.Err? <==> OwnedNotification(db, caller, id).None?
    ensures r.reply.Err? ==> r.reply.code == StatusNotFound && r.db == db
    ensures r.reply.Ok? ==> r.reply.code == StatusOk
    ensures r.reply.Ok? ==> r.db == db.(notifications := r.db.notifications)
    ensures r.reply.Ok? ==> |r.db.notifications.rows| == |db.notifications.rows|
    ensures r.reply.Ok? && Valid(db.notifications) ==> forall i :: 0 <= i < |db.notifications.rows| ==>
      r.db.notifications.rows[i] ==
        (if db.notifications.rows[i].id == id
         then Row(id, db.notifications.rows[i].data.(read := true))
         else db.notifications.rows[i])
    ensures WellFormed(db) ==> WellFormed(r.db)
  {
    match OwnedNotification(db, caller, id)
    case None => Refuse(db, StatusNotFound)
    case Some(n) =>
      var t := Replace(db.notifications, id, n.data.(read := true));
      assert Valid(db.notifications) ==> forall i :: 0 <= i < |db.notifications.rows| && db.notifications.rows[i].id == id ==>
        db.notifications.rows[i] == n;
      Outcome(Ok(StatusOk, ()), db.(notifications := t))
  }

  /** Marking a notification read twice leaves the same state as once. */
  lemma MarkAsReadIdempotent(db: Db, caller: Row<User>, id: nat)
    requires Valid(db.notifications)
    ensures MarkAsRead(MarkAsRead(db, caller, id).db, caller, id) == Outcome(MarkAsRead(db, caller, id).reply, MarkAsRead(db, caller, id).db)
  {
    var once := MarkAsRead(db, caller, id);
    if once.reply.Ok? {
      var n := OwnedNotification(db, caller, id).value;
      var d := n.data.(read := true);
      ReplaceAgain(db.notifications, id, d);
      assert once.db.notifications == Replace(db.notifications, id, d);
      assert OwnedNotification(once.db, caller, id) == Some(Row(id, d));
    }
  }
}

=== FILE: optional.dfy ===
/** A value that may be missing: a nullable column, an absent request
    field, a lookup that found nothing. */
module Optional {

  datatype Option<T> = None | Some(value: T) {

    /** The value, or `default` when missing (PHP's `??`). */
    function GetOr(default: T): (r: T)
      ensures Some? ==> r == value
      ensures None? ==> r == default
    {
      match this
      case Some(v) => v
      case None => default
    }
  }
}

=== FILE: presences.dfy ===
/** PresenceController: attendance records. Every action but `store`,
    `myPresences` and `teacherClasses` is reserved to administrators; `store`
    also admits the teachers of the student's class, and non-admin writes
    notify every administrator. */
module Presences {

  import opened Optional
  import opened Tally
  import opened Tables
  import opened Schema
  import opened Http
  import opened Notifications

  /** The body of a store or update request. A field that is missing, or
      (for the date) does not parse as a date, is `None`. */
  datatype PresenceRequest = PresenceRequest(studentId: Option<nat>, date: Option<Date>, status: Option<string>)

  /** `student_id: required|exists:students,id`, `date: required|date`,
      `status: required|in:present,absent`. */
  predicate ValidRequest(db: Db, req: PresenceRequest) {
    && RequiredKey(db.students, req.studentId)
    && req.date.Some?
    && req.status.Some? && (req.status.value == StatusPresent || req.status.value == StatusAbsent)
  }

  /** The presence a valid request describes. */
  function Requested(req: PresenceRequest): Presence
    requires req.studentId.Some? && req.date.Some? && req.status.Some?
  {
    Presence(req.studentId.value, req.date.value, req.status.value)
  }

  /** A presence exists for the student on that date, other than the row
      `except` names. */
  predicate Recorded(db: Db, studentId: nat, date: Date, except: Option<nat>) {
    exists i :: 0 <= i < |db.presences.rows| &&
      db.presences.rows[i].data.studentId == studentId && db.presences.rows[i].data.date == date &&
      (except.None? || db.presences.rows[i].id != except.value)
  }

  /** `$student->class_id` is truthy: set, and not 0. */
  predicate HasClass(s: Row<Student>) {
    s.data.classId.Some? && s.data.classId.value != 0
  }

  /** The class name as string interpolation renders it (null is empty). */
  function ClassName(c: Row<Classe>): string {
    c.data.name.GetOr("")
  }

  /** The caller may record attendance for the class: an administrator, or
      a teacher of that class. */
  predicate MayRecord(db: Db, caller: Row<User>, classId: nat) {
    IsAdmin(caller) || (caller.data.role == RoleEnseignant && IsTeacherOf(db, classId, caller.id))
  }

  // ---------------------------------------------------------------------
  // Listings

  /** `index`: every presence, to administrators only. */
  function Index(db: Db, caller: Row<User>): (r: Reply<seq<Row<Presence>>>)
    ensures !IsAdmin(caller) ==> r == Err(StatusForbidden)
    ensures IsAdmin(caller) ==> r == Ok(StatusOk, db.presences.rows)
  {
    if !IsAdmin(caller) then Err(StatusForbidden) else Ok(StatusOk, db.presences.rows)
  }

  /** The filters of `StudentPresence` and `classPresences`: a class filter
      keeps the presences whose student is in that class; a date filter keeps
      that date. `None` filters nothing. */
  function Selected(db: Db, classFilter: Option<nat>, dateFilter: Option<Date>): Row<Presence> -> bool {
    (p: Row<Presence>) =>
      (classFilter.None? || ClassOfPresence(db, p) == classFilter) &&
      (dateFilter.None? || p.data.date == dateFilter.value)
  }

  /** A query-string parameter is applied only when truthy: a class id of 0
      filters nothing. */
  function Truthy(param: Option<nat>): (r: Option<nat>)
    ensures r.Some? <==> param.Some? && param.value != 0
    ensures r.Some? ==> r == param
  {
    if param.Some? && param.value != 0 then param else None
  }

  /** `StudentPresence`: presences filtered by class and date, newest first.
      An empty result is still a (empty) list. */
  function StudentPresence(db: Db, caller: Row<User>, classId: Option<nat>, date: Option<Date>): (r: Reply<seq<Row<Presence>>>)
    ensures !IsAdmin(caller) ==> r == Err(StatusForbidden)
    ensures IsAdmin(caller) ==> r.Ok? && r.code == StatusOk
    ensures r.Ok? ==> forall i :: 0 <= i < |r.body| ==>
      r.body[i] in db.presences.rows &&
      (classId.None? || classId.value == 0 || ClassOfPresence(db, r.body[i]) == classId) &&
      (date.None? || r.body[i].data.date == date.value)
    ensures r.Ok? ==> forall i :: (0 <= i < |db.presences.rows| &&
      (classId.None? || classId.value == 0 || ClassOfPresence(db, db.presences.rows[i]) == classId) &&
      (date.None? || db.presences.rows[i].data.date == date.value)) ==>
      db.presences.rows[i] in r.body
    ensures r.Ok? && Valid(db.presences) ==> forall i, j :: 0 <= i < j < |r.body| ==> r.body[i].id > r.body[j].id
  {
    if !IsAdmin(caller) then Err(StatusForbidden)
    else
      var chosen := Filter(db.presences.rows, Selected(db, Truthy(classId), date));
      ReverseMembers(chosen);
      if Valid(db.presences) then
        FilterAscending(db.presences.rows, Selected(db, Truthy(classId), date));
        ReverseDescending(chosen);
        Ok(StatusOk, Reverse(chosen))
      else Ok(StatusOk, Reverse(chosen))
  }

  /** `classPresences`: the presences of one class's students, optionally
      on one date. An unknown class is not found. */
  function ClassPresences(db: Db, caller: Row<User>, classId: nat, date: Option<Date>): (r: Reply<seq<Row<Presence>>>)
    ensures Find(db.classes, classId).None? ==> r == Err(StatusNotFound)
    ensures Find(db.classes, classId).Some? && !IsAdmin(caller) ==> r == Err(StatusForbidden)
    ensures r.Ok? <==> Find(db.classes, classId).Some? && IsAdmin(caller)
    ensures r.Ok? ==> r.code == StatusOk
    ensures r.Ok? ==> forall i :: 0 <= i < |r.body| ==>
      r.body[i] in db.presences.rows && ClassOfPresence(db, r.body[i]) == Some(classId) &&
      (date.None? || r.body[i].data.date == date.value)
    ensures r.Ok? ==> forall i :: (0 <= i < |db.presences.rows| &&
      ClassOfPresence(db, db.presences.rows[i]) == Some(classId) &&
      (date.None? || db.presences.rows[i].data.date == date.value)) ==>
      db.presences.rows[i] in r.body
  {
    if Find(db.classes, classId).None? then Err(StatusNotFound)
    else if !IsAdmin(caller) then Err(StatusForbidden)
    else Ok(StatusOk, Filter(db.presences.rows, Selected(db, Some(classId), date)))
  }

  /** Holds of the presences of one student. */
  function OfStudent(studentId: nat): Row<Presence> -> bool {
    (p: Row<Presence>) => p.data.studentId == studentId
  }

  /** `myPresences`: a student's own attendance. */
  function MyPresences(db: Db, caller: Row<User>): (r: Reply<seq<Row<Presence>>>)
    ensures caller.data.role != RoleEtudiant ==> r == Err(StatusForbidden)
    ensures caller.data.role == RoleEtudiant && StudentOfUser(db, caller.id).None? ==> r == Err(StatusNotFound)
    ensures r.Ok? <==> caller.data.role == RoleEtudiant && StudentOfUser(db, caller.id).Some?
    ensures r.Ok? ==> r.code == StatusOk
    ensures r.Ok? ==> forall i :: 0 <= i < |r.body| ==>
      r.body[i] in db.presences.rows && r.body[i].data.studentId == StudentOfUser(db, caller.id).value.id
    ensures r.Ok? ==> forall i :: (0 <= i < |db.presences.rows| &&
      db.presences.rows[i].data.studentId == StudentOfUser(db, caller.id).value.id) ==>
      db.presences.rows[i] in r.body
  {
    if caller.data.role != RoleEtudiant then Err(StatusForbidden)
    else match StudentOfUser(db, caller.id)
      case None => Err(StatusNotFound)
      case Some(s) => Ok(StatusOk, Filter(db.presences.rows, OfStudent(s.id)))
  }

  /** `teacherClasses`: the caller's classes with their student counts. */
  function TeacherClasses(db: Db, caller: Row<User>): (r: Reply<seq<CountedClass>>)
    ensures caller.data.role != RoleEnseignant ==> r == Err(StatusForbidden)
    ensures caller.data.role == RoleEnseignant ==> r.Ok? && r.code == StatusOk
    ensures r.Ok? ==> forall i :: 0 <= i < |r.body| ==>
      r.body[i].classe in db.classes.rows && Linked(db, r.body[i].classe.id, caller.id) &&
      r.body[i].studentsCount == |StudentsOf(db, r.body[i].classe.id)|
    ensures r.Ok? ==> forall i :: 0 <= i < |db.classes.rows| && Linked(db, db.classes.rows[i].id, caller.id) ==>
      exists j :: 0 <= j < |r.body| && r.body[j].classe == db.classes.rows[i]
  {
    if caller.data.role != RoleEnseignant then Err(StatusForbidden)
    else
      var cs := AssignedClasses(db, caller.id);
      var counted := WithStudentCounts(db, cs);
      assert forall i :: 0 <= i < |cs| ==> counted[i].classe == cs[i];
      Ok(StatusOk, counted)
  }

  /** `show`: one presence; the route binding answers 404 before the role
      check. */
  function Show(db: Db, caller: Row<User>, id: nat): (r: Reply<Row<Presence>>)
    ensures Find(db.presences, id).None? ==> r == Err(StatusNotFound)
    ensures Find(db.presences, id).Some? && !IsAdmin(caller) ==> r == Err(StatusForbidden)
    ensures r.Ok? <==> Find(db.presences, id).Some? && IsAdmin(caller)
    ensures r.Ok? ==> r.code == StatusOk && r.body in db.presences.rows && r.body.id == id && IsAdmin(caller)
  {
    match Find(db.presences, id)
    case None => Err(StatusNotFound)
    case Some(p) => if !IsAdmin(caller) then Err(StatusForbidden) else Ok(StatusOk, p)
  }

  // ---------------------------------------------------------------------
  // Writes

  /** The student a valid request names. */
  function RequestedStudent(db: Db, req: PresenceRequest): (s: Row<Student>)
    requires ValidRequest(db, req)
    ensures s in db.students.rows && s.id == req.studentId.value
  {
    Find(db.students, req.studentId.value).value
  }

  /** Why `store` refuses a request, as the status it answers, or `None`
      when it records it. The checks run in this order: validation, then the
      student must have a class, then the caller must be an administrator or
      a teacher of that class, then the (student, date) pair must be free. A
      teacher whose student's class row no longer exists makes the source
      dereference null: a server error. */
  function StoreRefusal(db: Db, caller: Row<User>, req: PresenceRequest): (r: Option<nat>)
    ensures r.None? <==>
      && ValidRequest(db, req)
      && HasClass(RequestedStudent(db, req))
      && (IsAdmin(caller) || Find(db.classes, RequestedStudent(db, req).data.classId.value).Some?)
      && MayRecord(db, caller, RequestedStudent(db, req).data.classId.value)
      && !Recorded(db, req.studentId.value, req.date.value, None)
    ensures !ValidRequest(db, req) ==> r == Some(StatusUnprocessable)
    ensures ValidRequest(db, req) && !HasClass(RequestedStudent(db, req)) ==> r == Some(StatusUnprocessable)
    ensures ValidRequest(db, req) && HasClass(RequestedStudent(db, req)) && !IsAdmin(caller) ==>
      var classId := RequestedStudent(db, req).data.classId.value;
      && (caller.data.role != RoleEnseignant ==> r == Some(StatusForbidden))
      && (caller.data.role == RoleEnseignant && Find(db.classes, classId).None? ==> r == Some(StatusServerError))
      && (caller.data.role == RoleEnseignant && Find(db.classes, classId).Some? && !IsTeacherOf(db, classId, caller.id) ==>
            r == Some(StatusForbidden))
    ensures (&& ValidRequest(db, req) && HasClass(RequestedStudent(db, req))
             && (IsAdmin(caller) || Find(db.classes, RequestedStudent(db, req).data.classId.value).Some?)
             && MayRecord(db, caller, RequestedStudent(db, req).data.classId.value)
             && Recorded(db, req.studentId.value, req.date.value, None)) ==> r == Some(StatusUnprocessable)
  {
    if !ValidRequest(db, req) then Some(StatusUnprocessable)
    else
      var student := RequestedStudent(db, req);
      if !HasClass(student) then Some(StatusUnprocessable)
      else
        var classId := student.data.classId.value;
        if !IsAdmin(caller) && caller.data.role != RoleEnseignant then Some(StatusForbidden)
        else if !IsAdmin(caller) && Find(db.classes, classId).None? then Some(StatusServerError)
        else if !IsAdmin(caller) && !IsTeacherOf(db, classId, caller.id) then Some(StatusForbidden)
        else if Recorded(db, req.studentId.value, req.date.value, None) then Some(StatusUnprocessable)
        else None
  }

  /** The notification text of a recorded presence. */
  function StoreMessage(db: Db, req: PresenceRequest): Message
    requires ValidRequest(db, req)
  {
    var student := RequestedStudent(db, req);
    var name := match student.data.classId
      case None => ""
      case Some(classId) =>
        match Find(db.classes, classId)
        case Some(c) => ClassName(c)
        case None => "";
    PresenceRecorded(student.data.firstName, student.data.lastName, name, req.date.value)
  }

  /** The write of an accepted `store`: the presence is appended and, when
      `notify` holds, every administrator gets one unread notification. */
  function Record(db: Db, p: Presence, notify: bool, msg: Message): (r: Db)
    ensures r.presences.rows == db.presences.rows + [Row(db.presences.next, p)]
    ensures r.presences.next == db.presences.next + 1
    ensures r == db.(presences := r.presences, notifications := r.notifications)
    ensures !notify ==> r.notifications == db.notifications
    ensures notify ==> Notified(db.notifications, r.notifications, Admins(db), msg)
    ensures (WellFormed(db) && (p.status == StatusPresent || p.status == StatusAbsent) &&
             !Recorded(db, p.studentId, p.date, None)) ==> WellFormed(r)
  {
    var after := db.(presences := Insert(db.presences, p),
                     notifications := if notify then NotifyAll(db.notifications, Admins(db), msg) else db.notifications);
    if WellFormed(db) && (p.status == StatusPresent || p.status == StatusAbsent) && !Recorded(db, p.studentId, p.date, None) then
      InsertKeepsUnique(db, after, Row(db.presences.next, p));
      after
    else after
  }

  /** `store`: refused requests write nothing; an accepted one appends the
      requested presence, answers 201 with it, and, when the author is not
      an administrator, sends every administrator one unread notification. */
  function Store(db: Db, caller: Row<User>, req: PresenceRequest): (r: Outcome<Row<Presence>>)
    ensures r.reply.Err? <==> StoreRefusal(db, caller, req).Some?
    ensures r.reply.Err? ==> r.reply.code == StoreRefusal(db, caller, req).value && r.db == db
    ensures r.reply.Ok? ==>
      && r.reply.code == StatusCreated
      && r.reply.body == Row(db.presences.next, Requested(req))
      && r.db.presences.rows == db.presences.rows + [r.reply.body]
      && r.db.presences.next == db.presences.next + 1
      && r.db == db.(presences := r.db.presences, notifications := r.db.notifications)
    ensures r.reply.Ok? && IsAdmin(caller) ==> r.db.notifications == db.notifications
    ensures r.reply.Ok? && !IsAdmin(caller) ==> Notified(db.notifications, r.db.notifications, Admins(db), StoreMessage(db, req))
    ensures WellFormed(db) ==> WellFormed(r.db)
  {
    var refusal := StoreRefusal(db, caller, req);
    if refusal.Some? then Refuse(db, refusal.value)
    else
      var p := Requested(req);
      var after := Record(db, p, !IsAdmin(caller), StoreMessage(db, req));
      Outcome(Ok(StatusCreated, Row(db.presences.next, p)), after)
  }

  /** Appending a presence whose (student, date) is free keeps the table's
      invariants. */
  lemma InsertKeepsUnique(db: Db, after: Db, created: Row<Presence>)
    requires WellFormed(db)
    requires IsPresent(created) || IsAbsent(created)
    requires created.id == db.presences.next
    requires !Recorded(db, created.data.studentId, created.data.date, None)
    requires after.presences == Insert(db.presences, created.data)
    requires Valid(after.notifications)
    requires after == db.(presences := after.presences, notifications := after.notifications)
    ensures WellFormed(after)
  {
    var before := db.presences.rows;
    assert after.presences.rows == before + [created];
    forall a | a in before
      ensures a.data.studentId != created.data.studentId || a.data.date != created.data.date
    {
      var i :| 0 <= i < |before| && before[i] == a;
    }
    assert StatusesValid(after.presences);
    assert AttendanceUnique(after.presences) by {
      forall a, b | a in after.presences.rows && b in after.presences.rows &&
        a.data.studentId == b.data.studentId && a.data.date == b.data.date
        ensures a.id == b.id
      {
        if a != created && b != created {
          assert a in before && b in before;
        }
      }
    }
    assert PresencesOk(after.presences);
  }

  /** `update`: the binding answers 404, then the role check, validation,
      and a duplicate check that ignores the record itself. */
  function Update(db: Db, caller: Row<User>, id: nat, req: PresenceRequest): (r: Outcome<Row<Presence>>)
    ensures r.reply.Err? ==> r.db == db
    ensures Find(db.presences, id).None? ==> r.reply == Err(StatusNotFound)
    ensures Find(db.presences, id).Some? && !IsAdmin(caller) ==> r.reply == Err(StatusForbidden)
    ensures Find(db.presences, id).Some? && IsAdmin(caller) && !ValidRequest(db, req) ==> r.reply == Err(StatusUnprocessable)
    ensures (&& Find(db.presences, id).Some? && IsAdmin(caller) && ValidRequest(db, req)
             && Recorded(db, req.studentId.value, req.date.value, Some(id))) ==> r.reply == Err(StatusUnprocessable)
    ensures r.reply.Ok? <==>
      && Find(db.presences, id).Some? && IsAdmin(caller) && ValidRequest(db, req)
      && !Recorded(db, req.studentId.value, req.date.value, Some(id))
    ensures r.reply.Ok? ==>
      && r.reply.code == StatusOk
      && r.reply.body == Row(id, Requested(req))
      && r.db == db.(presences := r.db.presences)
      && r.db.presences.next == db.presences.next
      && |r.db.presences.rows| == |db.presences.rows|
    ensures r.reply.Ok? && Valid(db.presences) ==> forall i :: 0 <= i < |db.presences.rows| ==>
      r.db.presences.rows[i] == (if db.presences.rows[i].id == id then r.reply.body else db.presences.rows[i])
    ensures WellFormed(db) ==> WellFormed(r.db)
  {
    if Find(db.presences, id).None? then Refuse(db, StatusNotFound)
    else if !IsAdmin(caller) then Refuse(db, StatusForbidden)
    else if !ValidRequest(db, req) then Refuse(db, StatusUnprocessable)
    else if Recorded(db, req.studentId.value, req.date.value, Some(id)) then Refuse(db, StatusUnprocessable)
    else
      var updated := Row(id, Requested(req));
      var after := db.(presences := Replace(db.presences, id, updated.data));
      if WellFormed(db) then
        ReplaceKeepsUnique(db, after, updated);
        Outcome(Ok(StatusOk, updated), after)
      else Outcome(Ok(StatusOk, updated), after)
  }

  /** Overwriting a row with a (student, date) no other row holds keeps the
      table's invariants. */
  lemma ReplaceKeepsUnique(db: Db, after: Db, updated: Row<Presence>)
    requires WellFormed(db)
    requires IsPresent(updated) || IsAbsent(updated)
    requires !Recorded(db, updated.data.studentId, updated.data.date, Some(updated.id))
    requires after == db.(presences := Replace(db.presences, updated.id, updated.data))
    ensures WellFormed(after)
  {
    var old_ := db.presences.rows;
    var rows := after.presences.rows;
    forall a | a in rows
      ensures a == updated || (a in old_ && a.id != updated.id)
    {
      var i :| 0 <= i < |rows| && rows[i] == a;
    }
    forall a | a in old_ && a.id != updated.id
      ensures a.data.studentId != updated.data.studentId || a.data.date != updated.data.date
    {
      var i :| 0 <= i < |old_| && old_[i] == a;
    }
  }

  /** `destroy`: the binding answers 404, then the role check; then the row
      is gone and nothing else changes. */
  function Destroy(db: Db, caller: Row<User>, id: nat): (r: Outcome<()>)
    ensures r.reply.Err? ==> r.db == db
    ensures Find(db.presences, id).None? ==> r.reply == Err(StatusNotFound)
    ensures Find(db.presences, id).Some? && !IsAdmin(caller) ==> r.reply == Err(StatusForbidden)
    ensures r.reply.Ok? <==> Find(db.presences, id).Some? && IsAdmin(caller)
    ensures r.reply.Ok? ==>
      && r.reply.code == StatusNoContent
      && r.db == db.(presences := r.db.presences)
      && Find(r.db.presences, id).None?
      && (forall i :: 0 <= i < |db.presences.rows| && db.presences.rows[i].id != id ==> db.presences.rows[i] in r.db.presences.rows)
      && (forall i :: 0 <= i < |r.db.presences.rows| ==> r.db.presences.rows[i] in db.presences.rows)
    ensures r.reply.Ok? && Valid(db.presences) ==> |r.db.presences.rows| == |db.presences.rows| - 1
    ensures WellFormed(db) ==> WellFormed(r.db)
  {
    if Find(db.presences, id).None? then Refuse(db, StatusNotFound)
    else if !IsAdmin(caller) then Refuse(db, StatusForbidden)
    else
      DeleteSubset(db.presences, id);
      Outcome(Ok(StatusNoContent, ()), db.(presences := Delete(db.presences, id)))
  }

  // ---------------------------------------------------------------------
  // Properties relating several calls

  /** A presence just recorded is what an administrator's `show` answers
      for its id. */
  lemma StoreThenShow(db: Db, author: Row<User>, admin: Row<User>, req: PresenceRequest)
    requires WellFormed(db) && IsAdmin(admin)
    requires Store(db, author, req).reply.Ok?
    ensures var created := Store(db, author, req);
      Show(created.db, admin, created.reply.body.id) == Ok(StatusOk, created.reply.body)
  {
    var created := Store(db, author, req);
    var rows := created.db.presences.rows;
    assert rows[|db.presences.rows|] == created.reply.body;
  }

  /** Recording the same request twice: the second attempt is refused as a
      duplicate and writes nothing. */
  lemma StoreTwiceConflicts(db: Db, caller: Row<User>, req: PresenceRequest)
    requires Store(db, caller, req).reply.Ok?
    ensures Store(Store(db, caller, req).db, caller, req) == Refuse(Store(db, caller, req).db, StatusUnprocessable)
  {
    var after := Store(db, caller, req).db;
    var n := |db.presences.rows|;
    assert after.presences.rows[n] == Store(db, caller, req).reply.body;
    assert Recorded(after, req.studentId.value, req.date.value, None);
  }

  /** A request carrying exactly the fields of a stored presence. */
  function Resave(p: Presence): (req: PresenceRequest)
    ensures req.studentId == Some(p.studentId) && req.date == Some(p.date) && req.status == Some(p.status)
  {
    PresenceRequest(Some(p.studentId), Some(p.date), Some(p.status))
  }

  /** A stored presence occupies its own (student, date) pair. */
  lemma RecordOfItsPair(db: Db, p: Row<Presence>)
    requires p in db.presences.rows
    ensures Recorded(db, p.data.studentId, p.data.date, None)
  {
    var k :| 0 <= k < |db.presences.rows| && db.presences.rows[k] == p;
  }

  /** With one presence per (student, date), no other row occupies a
      stored presence's pair. */
  lemma OnlyRecordOfItsPair(db: Db, p: Row<Presence>)
    requires AttendanceUnique(db.presences) && p in db.presences.rows
    ensures !Recorded(db, p.data.studentId, p.data.date, Some(p.id))
  {
    forall i | 0 <= i < |db.presences.rows| && db.presences.rows[i].id != p.id
      ensures db.presences.rows[i].data.studentId != p.data.studentId || db.presences.rows[i].data.date != p.data.date
    {
      assert db.presences.rows[i] in db.presences.rows;
    }
  }

  /** Re-saving a presence with its own fields is accepted by `update`. */
  lemma UpdateResaveAllowed(db: Db, caller: Row<User>, id: nat)
    requires WellFormed(db) && IsAdmin(caller)
    requires Find(db.presences, id).Some?
    requires Find(db.students, Find(db.presences, id).value.data.studentId).Some?
    ensures var p := Find(db.presences, id).value;
      Update(db, caller, id, Resave(p.data)).reply == Ok(StatusOk, p)
  {
    var p := Find(db.presences, id).value;
    OnlyRecordOfItsPair(db, p);
    assert ValidRequest(db, Resave(p.data));
  }

  /** The same fields sent to `store` are refused with 422 (a duplicate, or
      a student without a class). */
  lemma StoreResaveRejected(db: Db, caller: Row<User>, id: nat)
    requires StatusesValid(db.presences) && IsAdmin(caller)
    requires Find(db.presences, id).Some?
    requires Find(db.students, Find(db.presences, id).value.data.studentId).Some?
    ensures Store(db, caller, Resave(Find(db.presences, id).value.data)).reply == Err(StatusUnprocessable)
  {
    var p := Find(db.presences, id).value;
    RecordOfItsPair(db, p);
    assert ValidRequest(db, Resave(p.data));
  }
}

=== FILE: roster.dfy ===
/** ClassesController: the list of classes open to every authenticated
    user, and a class's roster with each student's e-mail address. */
module Rosters {

  import opened Optional
  import opened Tally
  import opened Tables
  import opened Schema
  import opened Http
  import Classes

  /** `index`: every class, whatever the caller's role. */
  function Index(db: Db): (r: Reply<seq<Row<Classe>>>)
    ensures r.Ok? && r.code == StatusOk
    ensures |r.body| == |db.classes.rows|
    ensures forall i :: 0 <= i < |r.body| ==> r.body[i] == db.classes.rows[i]
  {
    Ok(StatusOk, db.classes.rows)
  }

  /** One roster line; `email` is `None` when the student's user row is gone. */
  datatype Entry = Entry(id: nat, firstName: string, lastName: string, matricule: string, email: Option<string>)

  /** The e-mail address of the user `userId`, if that user exists. */
  function EmailOf(db: Db, userId: nat): (r: Option<string>)
    ensures r.Some? <==> Find(db.users, userId).Some?
    ensures r.Some? ==> r.value == Find(db.users, userId).value.data.email
  {
    match Find(db.users, userId)
    case Some(u) => Some(u.data.email)
    case None => None
  }

  function EntryOf(db: Db, s: Row<Student>): Entry {
    Entry(s.id, s.data.firstName, s.data.lastName, s.data.matricule, EmailOf(db, s.data.userId))
  }

  /** The roster of class `id`, in student order. */
  function Roster(db: Db, id: nat): (r: seq<Entry>)
    ensures |r| == |StudentsOf(db, id)|
    ensures forall i :: 0 <= i < |r| ==> r[i] == EntryOf(db, StudentsOf(db, id)[i])
  {
    var ss := StudentsOf(db, id);
    seq(|ss|, i requires 0 <= i < |ss| => EntryOf(db, ss[i]))
  }

  /** Who may read the roster of class `id`: everyone except a teacher
      (`enseignant`) who is not linked to the class. */
  predicate MayRead(db: Db, caller: Row<User>, id: nat) {
    caller.data.role != RoleEnseignant || Linked(db, id, caller.id)
  }

  /** `getStudents`: 404 for an unknown class, 403 for a teacher outside
      it, otherwise one line per student of the class. */
  function GetStudents(db: Db, caller: Row<User>, id: nat): (r: Reply<seq<Entry>>)
    ensures Find(db.classes, id).None? ==> r == Err(StatusNotFound)
    ensures Find(db.classes, id).Some? && caller.data.role == RoleEnseignant && !Linked(db, id, caller.id) ==>
      r == Err(StatusForbidden)
    ensures r.Ok? <==> Find(db.classes, id).Some? && MayRead(db, caller, id)
    ensures r.Ok? ==> r.code == StatusOk
    ensures r.Ok? ==> forall i :: 0 <= i < |r.body| ==>
      exists s :: s in db.students.rows && s.data.classId == Some(id) && r.body[i] == EntryOf(db, s)
    ensures r.Ok? ==> forall s :: s in db.students.rows && s.data.classId == Some(id) ==>
      EntryOf(db, s) in r.body
  {
    if Find(db.classes, id).None? then Err(StatusNotFound)
    else if !MayRead(db, caller, id) then Err(StatusForbidden)
    else
      var r := Roster(db, id);
      assert forall i :: 0 <= i < |r| ==> StudentsOf(db, id)[i] in db.students.rows;
      Ok(StatusOk, r)
  }

  // ---------------------------------------------------------------------
  // Properties

  /** Any two callers who may read a roster read the same one. */
  lemma RosterIndependentOfCaller(db: Db, a: Row<User>, b: Row<User>, id: nat)
    requires GetStudents(db, a, id).Ok? && GetStudents(db, b, id).Ok?
    ensures GetStudents(db, a, id) == GetStudents(db, b, id)
  {
  }

  /** The roster has as many lines as the administrators' view of the
      class counts students. */
  lemma RosterMatchesCount(db: Db, admin: Row<User>, caller: Row<User>, id: nat)
    requires IsAdmin(admin) && GetStudents(db, caller, id).Ok?
    ensures Classes.Show(db, admin, id).Ok?
    ensures |GetStudents(db, caller, id).body| == Classes.Show(db, admin, id).body.studentsCount
  {
  }

  /** The open listing and the administrators' listing show the same
      classes in the same order. */
  lemma ListingsAgree(db: Db, admin: Row<User>)
    requires IsAdmin(admin)
    ensures |Index(db).body| == |Classes.Index(db, admin).body|
    ensures forall i :: 0 <= i < |Index(db).body| ==> Index(db).body[i] == Classes.Index(db, admin).body[i].classe
  {
  }
}

=== FILE: schema.dfy ===
/** The database of the attendance back end: one table per Eloquent model,
    the relations the models declare, and the invariants the controllers
    maintain. Dates are opaque, totally ordered values (integers). */
module Schema {

  import opened Optional
  import opened Tally
  import opened Tables

  /** Role strings exactly as the controllers spell them. */
  const RoleAdmin := "admin"
  const RoleEnseignant := "enseignant"
  const RoleEtudiant := "etudiant"
  /** The role `StudentController::update` and `enroll` test for; the
      registration rules never assign it. */
  const RoleStudent := "student"

  /** The only attendance statuses the validation rules accept. */
  const StatusPresent := "present"
  const StatusAbsent := "absent"

  type Date = int

  datatype User = User(name: string, email: string, role: string)

  datatype Classe = Classe(name: Option<string>, description: Option<string>)

  /** A `class_teacher` association. */
  datatype ClassTeacher = ClassTeacher(classId: nat, teacherId: nat)

  datatype Student = Student(userId: nat, classId: Option<nat>, firstName: string, lastName: string, matricule: string)

  datatype Presence = Presence(studentId: nat, date: Date, status: string)

  /** The text of an attendance notification, "Nouvelle présence enregistrée
      pour <first> <last> (<class>, <date>).", kept as its parts. */
  datatype Message = PresenceRecorded(firstName: string, lastName: string, className: string, date: Date)

  datatype Notification = Notification(userId: nat, message: Message, read: bool)

  datatype Db = Db(
    users: Table<User>,
    classes: Table<Classe>,
    classTeacher: Table<ClassTeacher>,
    students: Table<Student>,
    presences: Table<Presence>,
    notifications: Table<Notification>)

  predicate IsAdmin(u: Row<User>) {
    u.data.role == RoleAdmin
  }

  /** The administrators, in user order (`User::where('role', 'admin')`). */
  function Admins(db: Db): (r: seq<Row<User>>)
    ensures forall i :: 0 <= i < |r| ==> r[i] in db.users.rows && IsAdmin(r[i])
    ensures forall i :: 0 <= i < |db.users.rows| && IsAdmin(db.users.rows[i]) ==> db.users.rows[i] in r
  {
    Filter(db.users.rows, IsAdmin)
  }

  // ---------------------------------------------------------------------
  // Relations

  /** Key of a student's class (`students.class_id`). */
  function StudentClass(s: Row<Student>): Option<nat> {
    s.data.classId
  }

  /** `Classe::students`: the students whose class_id is the class. */
  function StudentsOf(db: Db, classId: nat): (r: seq<Row<Student>>)
    ensures forall i :: 0 <= i < |r| ==> r[i] in db.students.rows && r[i].data.classId == Some(classId)
    ensures forall i :: 0 <= i < |db.students.rows| && db.students.rows[i].data.classId == Some(classId) ==>
      db.students.rows[i] in r
  {
    Group(db.students.rows, StudentClass, Some(classId))
  }

  /** A `class_teacher` row pairs the class with the user. */
  predicate Linked(db: Db, classId: nat, userId: nat) {
    exists i :: 0 <= i < |db.classTeacher.rows| && db.classTeacher.rows[i].data == ClassTeacher(classId, userId)
  }

  /** `Classe::teachers`: users linked to the class whose role is enseignant. */
  predicate IsTeacherOf(db: Db, classId: nat, userId: nat) {
    && Linked(db, classId, userId)
    && match Find(db.users, userId)
       case Some(u) => u.data.role == RoleEnseignant
       case None => false
  }

  /** Holds of the classes linked to the user. */
  function LinkedTo(db: Db, userId: nat): Row<Classe> -> bool {
    (c: Row<Classe>) => Linked(db, c.id, userId)
  }

  /** A teacher's classes: the class rows joined to the user through
      `class_teacher`, in class order. */
  function AssignedClasses(db: Db, userId: nat): (r: seq<Row<Classe>>)
    ensures forall i :: 0 <= i < |r| ==> r[i] in db.classes.rows && Linked(db, r[i].id, userId)
    ensures forall i :: 0 <= i < |db.classes.rows| && Linked(db, db.classes.rows[i].id, userId) ==>
      db.classes.rows[i] in r
  {
    Filter(db.classes.rows, LinkedTo(db, userId))
  }

  /** The ids of the classes `cs`, as `students.class_id` values. */
  function ClassKeys(cs: seq<Row<Classe>>): (ks: seq<Option<nat>>)
    ensures |ks| == |cs|
    ensures forall i :: 0 <= i < |cs| ==> ks[i] == Some(cs[i].id)
  {
    if cs == [] then [] else [Some(cs[0].id)] + ClassKeys(cs[1..])
  }

  /** Ascending ids give distinct keys. */
  lemma ClassKeysDistinct(cs: seq<Row<Classe>>)
    requires Ascending(cs)
    ensures NoDups(ClassKeys(cs))
  {
  }

  /** The ids of a teacher's classes. */
  function AssignedKeys(db: Db, userId: nat): (r: seq<Option<nat>>)
    ensures |r| == |AssignedClasses(db, userId)|
    ensures forall i :: 0 <= i < |r| ==> r[i] == Some(AssignedClasses(db, userId)[i].id)
  {
    ClassKeys(AssignedClasses(db, userId))
  }

  /** Holds of the students owned by the user. */
  function OwnedBy(userId: nat): Row<Student> -> bool {
    (s: Row<Student>) => s.data.userId == userId
  }

  /** `User::student`: the first student row whose user_id is the user. */
  function StudentOfUser(db: Db, userId: nat): (r: Option<Row<Student>>)
    ensures r.Some? <==> exists i :: 0 <= i < |db.students.rows| && db.students.rows[i].data.userId == userId
    ensures r.Some? ==> r.value in db.students.rows && r.value.data.userId == userId
  {
    First(db.students.rows, OwnedBy(userId))
  }

  /** The class of a presence's student (`Classe::presences` goes through
      students); `None` when the student is gone or has no class. */
  function ClassOfPresence(db: Db, p: Row<Presence>): Option<nat> {
    match Find(db.students, p.data.studentId)
    case Some(s) => s.data.classId
    case None => None
  }

  /** `ClassOfPresence` as a grouping key. */
  function PresenceClass(db: Db): Row<Presence> -> Option<nat> {
    (p: Row<Presence>) => ClassOfPresence(db, p)
  }

  predicate IsPresent(p: Row<Presence>) {
    p.data.status == StatusPresent
  }

  predicate IsAbsent(p: Row<Presence>) {
    p.data.status == StatusAbsent
  }

  /** A class with its `students_count` (`withCount('students')`). */
  datatype CountedClass = CountedClass(classe: Row<Classe>, studentsCount: nat)

  function WithStudentCounts(db: Db, cs: seq<Row<Classe>>): (r: seq<CountedClass>)
    ensures |r| == |cs|
    ensures forall i :: 0 <= i < |cs| ==> r[i].classe == cs[i] && r[i].studentsCount == |StudentsOf(db, cs[i].id)|
  {
    seq(|cs|, i requires 0 <= i < |cs| => CountedClass(cs[i], |StudentsOf(db, cs[i].id)|))
  }

  // ---------------------------------------------------------------------
  // Invariants

  /** Every account has a role the registration rules accept. */
  predicate RolesValid(users: Table<User>) {
    forall u :: u in users.rows ==> u.data.role in {RoleAdmin, RoleEnseignant, RoleEtudiant}
  }

  /** No two accounts share an email (`unique:users,email`). */
  predicate EmailsUnique(users: Table<User>) {
    forall a, b :: a in users.rows && b in users.rows && a.data.email == b.data.email ==> a.id == b.id
  }

  /** Every attendance status is one the validation rules accept. */
  predicate StatusesValid(presences: Table<Presence>) {
    forall p :: p in presences.rows ==> IsPresent(p) || IsAbsent(p)
  }

  /** At most one presence per (student_id, date). */
  predicate AttendanceUnique(presences: Table<Presence>) {
    forall a, b ::
      (a in presences.rows && b in presences.rows &&
       a.data.studentId == b.data.studentId && a.data.date == b.data.date) ==> a.id == b.id
  }

  /** At most one association per (class_id, teacher_id). */
  predicate PairsUnique(classTeacher: Table<ClassTeacher>) {
    forall a, b :: a in classTeacher.rows && b in classTeacher.rows && a.data == b.data ==> a.id == b.id
  }

  /** At most one student record per account (`User::student` is a
      has-one relation, and every creation checks it). */
  predicate OneStudentPerUser(students: Table<Student>) {
    forall a, b :: a in students.rows && b in students.rows && a.data.userId == b.data.userId ==> a.id == b.id
  }

  /** Every class a student points to was issued by the classes table
      (its id is below the counter `classesNext`), so a new class starts
      empty. */
  predicate ClassKeysIssued(students: Table<Student>, classesNext: nat) {
    forall s :: s in students.rows && s.data.classId.Some? ==> s.data.classId.value < classesNext
  }

  predicate UsersOk(users: Table<User>) {
    Valid(users) && RolesValid(users) && EmailsUnique(users)
  }

  predicate PairsOk(classTeacher: Table<ClassTeacher>) {
    Valid(classTeacher) && PairsUnique(classTeacher)
  }

  predicate StudentsOk(students: Table<Student>, classesNext: nat) {
    Valid(students) && OneStudentPerUser(students) && ClassKeysIssued(students, classesNext)
  }

  predicate PresencesOk(presences: Table<Presence>) {
    Valid(presences) && StatusesValid(presences) && AttendanceUnique(presences)
  }

  /** The state every action preserves, table by table. */
  predicate WellFormed(db: Db) {
    && UsersOk(db.users)
    && Valid(db.classes)
    && PairsOk(db.classTeacher)
    && StudentsOk(db.students, db.classes.next)
    && PresencesOk(db.presences)
    && Valid(db.notifications)
  }

  /** The database before any request. */
  function EmptyDb(): (db: Db)
    ensures WellFormed(db)
  {
    Db(Empty(), Empty(), Empty(), Empty(), Empty(), Empty())
  }
}

/** Responses: an HTTP status with a body, or an error status; and the
    request-validation rules shared by the controllers. */
module Http {

  import opened Optional
  import opened Tables
  import opened Schema

  const StatusOk: nat := 200
  const StatusCreated: nat := 201
  const StatusNoContent: nat := 204
  const StatusUnauthenticated: nat := 401
  const StatusForbidden: nat := 403
  const StatusNotFound: nat := 404
  const StatusUnprocessable: nat := 422
  const StatusServerError: nat := 500

  datatype Reply<T> = Ok(code: nat, body: T) | Err(code: nat)

  /** A response together with the database the request leaves behind. */
  datatype Outcome<T> = Outcome(reply: Reply<T>, db: Db)

  /** An error response that writes nothing. */
  function Refuse<T>(db: Db, code: nat): (r: Outcome<T>)
    ensures r.reply.Err? && r.reply.code == code && r.db == db
  {
    Outcome(Err(code), db)
  }

  /** `required|string|max:n`: present, non-empty, at most `n` characters. */
  predicate RequiredString(field: Option<string>, n: nat) {
    field.Some? && 0 < |field.value| <= n
  }

  /** `required|exists:<table>,id`: present and the key of a row. */
  predicate RequiredKey<T>(t: Table<T>, field: Option<nat>) {
    field.Some? && Find(t, field.value).Some?
  }
}

=== FILE: stats.dfy ===
/** StatsController: the administrators' attendance summary: global
    present and absent counts, their ratio, and the counts of every class. */
module Stats {

  import opened Optional
  import opened Tally
  import opened Tables
  import opened Schema
  import opened Http

  /** One class's line of `by_room`. */
  datatype Room = Room(room: Option<string>, presences: nat, absences: nat)

  datatype Summary = Summary(totalPresences: nat, totalAbsences: nat, ratio: real, byRoom: seq<Room>)

  /** The presences with status `present`. */
  function PresentRows(db: Db): seq<Row<Presence>> {
    Filter(db.presences.rows, IsPresent)
  }

  /** The presences with status `absent`. */
  function AbsentRows(db: Db): seq<Row<Presence>> {
    Filter(db.presences.rows, IsAbsent)
  }

  /** The `by_room` lines of the classes `cs`, in order: a class counts the
      presences of the students whose `class_id` is that class. */
  function Rooms(db: Db, cs: seq<Row<Classe>>): (r: seq<Room>)
    ensures |r| == |cs|
    ensures forall i :: 0 <= i < |cs| ==>
      && r[i].room == cs[i].data.name
      && r[i].presences == CountKey(PresentRows(db), PresenceClass(db), Some(cs[i].id))
      && r[i].absences == CountKey(AbsentRows(db), PresenceClass(db), Some(cs[i].id))
  {
    if cs == [] then []
    else
      var c := cs[0];
      var rest := Rooms(db, cs[1..]);
      [Room(c.data.name, CountKey(PresentRows(db), PresenceClass(db), Some(c.id)),
                         CountKey(AbsentRows(db), PresenceClass(db), Some(c.id)))] + rest
  }

  /** `stats`: to administrators only. */
  function Stats(db: Db, caller: Row<User>): (r: Reply<Summary>)
    ensures !IsAdmin(caller) ==> r == Err(StatusForbidden)
    ensures IsAdmin(caller) ==> r.Ok? && r.code == StatusOk
    ensures r.Ok? ==>
      var s := r.body;
      && s.totalPresences == Count(db.presences.rows, IsPresent)
      && s.totalAbsences == Count(db.presences.rows, IsAbsent)
      && IsRatio(s.ratio, s.totalPresences, s.totalPresences + s.totalAbsences)
      && 0.0 <= s.ratio <= 1.0
      && |s.byRoom| == |db.classes.rows|
      && forall i :: 0 <= i < |db.classes.rows| ==>
           && s.byRoom[i].room == db.classes.rows[i].data.name
           && s.byRoom[i].presences == CountKey(PresentRows(db), PresenceClass(db), Some(db.classes.rows[i].id))
           && s.byRoom[i].absences == CountKey(AbsentRows(db), PresenceClass(db), Some(db.classes.rows[i].id))
  {
    if !IsAdmin(caller) then Err(StatusForbidden)
    else
      var present := |PresentRows(db)|;
      var absent := |AbsentRows(db)|;
      var ratio := Ratio(present, present + absent);
      Ok(StatusOk, Summary(present, absent, ratio, Rooms(db, db.classes.rows)))
  }

  // ---------------------------------------------------------------------
  // Properties

  /** The status is always `present` or `absent`, so the two totals
      together count every presence. */
  lemma TotalsCoverAll(db: Db, caller: Row<User>)
    requires WellFormed(db) && IsAdmin(caller)
    ensures Stats(db, caller).body.totalPresences + Stats(db, caller).body.totalAbsences == |db.presences.rows|
  {
    assert StatusesValid(db.presences);
    CountSplit(db.presences.rows, IsPresent, IsAbsent);
  }

  function SumPresences(rooms: seq<Room>): nat {
    if rooms == [] then 0 else rooms[0].presences + SumPresences(rooms[1..])
  }

  function SumAbsences(rooms: seq<Room>): nat {
    if rooms == [] then 0 else rooms[0].absences + SumAbsences(rooms[1..])
  }

  lemma {:induction false} RoomSums(db: Db, cs: seq<Row<Classe>>)
    ensures SumPresences(Rooms(db, cs)) == SumCounts(PresentRows(db), PresenceClass(db), ClassKeys(cs))
    ensures SumAbsences(Rooms(db, cs)) == SumCounts(AbsentRows(db), PresenceClass(db), ClassKeys(cs))
  {
    if cs != [] {
      RoomSums(db, cs[1..]);
      assert Rooms(db, cs)[1..] == Rooms(db, cs[1..]);
    }
  }

  /** The rooms split the totals: every counted presence falls in exactly
      one room, except those of students without an existing class, which
      count in the totals but in no room. */
  lemma RoomsPartitionTotals(db: Db, caller: Row<User>)
    requires WellFormed(db) && IsAdmin(caller)
    ensures var s := Stats(db, caller).body;
      var ks := ClassKeys(db.classes.rows);
      && SumPresences(s.byRoom) + CountKeyOut(PresentRows(db), PresenceClass(db), ks) == s.totalPresences
      && SumAbsences(s.byRoom) + CountKeyOut(AbsentRows(db), PresenceClass(db), ks) == s.totalAbsences
  {
    var ks := ClassKeys(db.classes.rows);
    ClassKeysDistinct(db.classes.rows);
    RoomSums(db, db.classes.rows);
    SumCountsDistinct(PresentRows(db), PresenceClass(db), ks);
    SumCountsDistinct(AbsentRows(db), PresenceClass(db), ks);
    InOutKeys(PresentRows(db), PresenceClass(db), ks);
    InOutKeys(AbsentRows(db), PresenceClass(db), ks);
  }

  /** With every presence's student in an existing class, the rooms hold
      every presence and every absence. */
  lemma RoomsCoverTotals(db: Db, caller: Row<User>)
    requires WellFormed(db) && IsAdmin(caller)
    requires forall i :: 0 <= i < |db.presences.rows| ==>
      exists j :: 0 <= j < |db.classes.rows| && ClassOfPresence(db, db.presences.rows[i]) == Some(db.classes.rows[j].id)
    ensures SumPresences(Stats(db, caller).body.byRoom) == Stats(db, caller).body.totalPresences
    ensures SumAbsences(Stats(db, caller).body.byRoom) == Stats(db, caller).body.totalAbsences
  {
    var ks := ClassKeys(db.classes.rows);
    ClassKeysDistinct(db.classes.rows);
    RoomSums(db, db.classes.rows);
    SumCountsDistinct(PresentRows(db), PresenceClass(db), ks);
    SumCountsDistinct(AbsentRows(db), PresenceClass(db), ks);
    forall x | x in PresentRows(db)
      ensures PresenceClass(db)(x) in ks
    {
      var i :| 0 <= i < |db.presences.rows| && db.presences.rows[i] == x;
      var j :| 0 <= j < |db.classes.rows| && ClassOfPresence(db, x) == Some(db.classes.rows[j].id);
      assert ks[j] == Some(db.classes.rows[j].id);
    }
    forall x | x in AbsentRows(db)
      ensures PresenceClass(db)(x) in ks
    {
      var i :| 0 <= i < |db.presences.rows| && db.presences.rows[i] == x;
      var j :| 0 <= j < |db.classes.rows| && ClassOfPresence(db, x) == Some(db.classes.rows[j].id);
      assert ks[j] == Some(db.classes.rows[j].id);
    }
    CountKeyInCovering(PresentRows(db), PresenceClass(db), ks);
    CountKeyInCovering(AbsentRows(db), PresenceClass(db), ks);
  }
}

=== FILE: students.dfy ===
/** StudentController: student records, reserved to administrators except
    for `enroll`, which a student calls for themself. New records receive
    the next matricule. */
module Students {

  import opened Optional
  import opened Tables
  import opened Schema
  import opened Http
  import opened Matricules

  /** The body of an administrator's store or update request; `None` for a
      missing field. */
  datatype StudentRequest = StudentRequest(userId: Option<nat>, classId: Option<nat>, firstName: Option<string>, lastName: Option<string>)

  /** The body of a self-enrolment request. */
  datatype EnrollRequest = EnrollRequest(classId: Option<nat>, firstName: Option<string>, lastName: Option<string>)

  /** `first_name` and `last_name`: `required|string|max:255`. */
  predicate ValidNames(firstName: Option<string>, lastName: Option<string>) {
    RequiredString(firstName, 255) && RequiredString(lastName, 255)
  }

  /** `user_id` and `class_id` exist, and both names are valid. */
  predicate ValidRequest(db: Db, req: StudentRequest) {
    RequiredKey(db.users, req.userId) && RequiredKey(db.classes, req.classId) && ValidNames(req.firstName, req.lastName)
  }

  /** `class_id` exists, and both names are valid. */
  predicate ValidEnrollment(db: Db, req: EnrollRequest) {
    RequiredKey(db.classes, req.classId) && ValidNames(req.firstName, req.lastName)
  }

  /** The account a valid request names. */
  function RequestedUser(db: Db, req: StudentRequest): (u: Row<User>)
    requires ValidRequest(db, req)
    ensures u in db.users.rows && u.id == req.userId.value
  {
    Find(db.users, req.userId.value).value
  }

  /** The record a creation writes: the next matricule, the given class. */
  function NewStudent(db: Db, userId: nat, classId: nat, firstName: string, lastName: string): (s: Student)
    ensures s.userId == userId && s.classId == Some(classId) && s.firstName == firstName && s.lastName == lastName
    ensures s.matricule == NextMatricule(db.students.rows)
    ensures Number(s.matricule) == NextNumber(db.students.rows)
    ensures db.students.rows == [] ==> s.matricule == "IUT-000001"
  {
    Student(userId, Some(classId), firstName, lastName, NextMatricule(db.students.rows))
  }

  /** Appending the record of an account that has none keeps the
      invariants. */
  lemma AddKeepsWellFormed(db: Db, s: Student)
    requires WellFormed(db)
    requires StudentOfUser(db, s.userId).None?
    requires s.classId.Some? ==> Find(db.classes, s.classId.value).Some?
    ensures WellFormed(db.(students := Insert(db.students, s)))
  {
    forall a | a in db.students.rows
      ensures a.data.userId != s.userId
    {
      var i :| 0 <= i < |db.students.rows| && db.students.rows[i] == a;
    }
  }

  // ---------------------------------------------------------------------
  // Administrator actions

  /** `index`: every student, to administrators only. */
  function Index(db: Db, caller: Row<User>): (r: Reply<seq<Row<Student>>>)
    ensures !IsAdmin(caller) ==> r == Err(StatusForbidden)
    ensures IsAdmin(caller) ==> r == Ok(StatusOk, db.students.rows)
  {
    if !IsAdmin(caller) then Err(StatusForbidden) else Ok(StatusOk, db.students.rows)
  }

  /** `store`: role check, validation, the account must be a student's
      (`etudiant`) and must not have a record yet; the new record gets the
      next matricule. */
  function Store(db: Db, caller: Row<User>, req: StudentRequest): (r: Outcome<Row<Student>>)
    ensures r.reply.Err? ==> r.db == db
    ensures !IsAdmin(caller) ==> r.reply == Err(StatusForbidden)
    ensures IsAdmin(caller) && !ValidRequest(db, req) ==> r.reply == Err(StatusUnprocessable)
    ensures IsAdmin(caller) && ValidRequest(db, req) && RequestedUser(db, req).data.role != RoleEtudiant ==>
      r.reply == Err(StatusUnprocessable)
    ensures IsAdmin(caller) && ValidRequest(db, req) && StudentOfUser(db, req.userId.value).Some? ==>
      r.reply == Err(StatusUnprocessable)
    ensures r.reply.Ok? <==>
      && IsAdmin(caller) && ValidRequest(db, req)
      && RequestedUser(db, req).data.role == RoleEtudiant
      && StudentOfUser(db, req.userId.value).None?
    ensures r.reply.Ok? ==>
      && r.reply.code == StatusCreated
      && r.reply.body.id == db.students.next
      && r.reply.body.data.userId == req.userId.value
      && r.reply.body.data.classId == req.classId
      && r.reply.body.data.firstName == req.firstName.value
      && r.reply.body.data.lastName == req.lastName.value
      && r.reply.body.data.matricule == NextMatricule(db.students.rows)
      && Number(r.reply.body.data.matricule) == NextNumber(db.students.rows)
      && r.db == db.(students := Insert(db.students, r.reply.body.data))
    ensures WellFormed(db) ==> WellFormed(r.db)
  {
    if !IsAdmin(caller) then Refuse(db, StatusForbidden)
    else if !ValidRequest(db, req) then Refuse(db, StatusUnprocessable)
    else if RequestedUser(db, req).data.role != RoleEtudiant then Refuse(db, StatusUnprocessable)
    else if StudentOfUser(db, req.userId.value).Some? then Refuse(db, StatusUnprocessable)
    else
      var s := NewStudent(db, req.userId.value, req.classId.value, req.firstName.value, req.lastName.value);
      if WellFormed(db) then
        AddKeepsWellFormed(db, s);
        Outcome(Ok(StatusCreated, Row(db.students.next, s)), db.(students := Insert(db.students, s)))
      else Outcome(Ok(StatusCreated, Row(db.students.next, s)), db.(students := Insert(db.students, s)))
  }

  /** `show`: one student; the route binding answers 404 first. */
  function Show(db: Db, caller: Row<User>, id: nat): (r: Reply<Row<Student>>)
    ensures Find(db.students, id).None? ==> r == Err(StatusNotFound)
    ensures Find(db.students, id).Some? && !IsAdmin(caller) ==> r == Err(StatusForbidden)
    ensures r.Ok? <==> Find(db.students, id).Some? && IsAdmin(caller)
    ensures r.Ok? ==> r.code == StatusOk && r.body in db.students.rows && r.body.id == id && IsAdmin(caller)
  {
    match Find(db.students, id)
    case None => Err(StatusNotFound)
    case Some(s) => if !IsAdmin(caller) then Err(StatusForbidden) else Ok(StatusOk, s)
  }

  /** Overwriting a record with an account that owns no other record keeps
      the invariants. */
  lemma RelinkKeepsWellFormed(db: Db, id: nat, s: Student)
    requires WellFormed(db)
    requires forall i :: 0 <= i < |db.students.rows| && db.students.rows[i].data.userId == s.userId ==>
      db.students.rows[i].id == id
    requires s.classId.Some? ==> Find(db.classes, s.classId.value).Some?
    ensures WellFormed(db.(students := Replace(db.students, id, s)))
  {
    var rows := Replace(db.students, id, s).rows;
    forall a | a in rows
      ensures a == Row(id, s) || (a in db.students.rows && a.id != id)
    {
      var i :| 0 <= i < |rows| && rows[i] == a;
    }
  }

  /** The body of `update` with the role it demands of the linked account
      as a parameter: binding 404, role check, validation, the account's
      role, and the account must not own a different record. The matricule
      is kept. */
  function UpdateAs(db: Db, caller: Row<User>, id: nat, req: StudentRequest, role: string): (r: Outcome<Row<Student>>)
    ensures r.reply.Err? ==> r.db == db
    ensures Find(db.students, id).None? ==> r.reply == Err(StatusNotFound)
    ensures Find(db.students, id).Some? && !IsAdmin(caller) ==> r.reply == Err(StatusForbidden)
    ensures Find(db.students, id).Some? && IsAdmin(caller) && !ValidRequest(db, req) ==> r.reply == Err(StatusUnprocessable)
    ensures (&& Find(db.students, id).Some? && IsAdmin(caller) && ValidRequest(db, req)
             && RequestedUser(db, req).data.role != role) ==> r.reply == Err(StatusUnprocessable)
    ensures (&& Find(db.students, id).Some? && IsAdmin(caller) && ValidRequest(db, req)
             && StudentOfUser(db, req.userId.value).Some? && StudentOfUser(db, req.userId.value).value.id != id) ==>
            r.reply == Err(StatusUnprocessable)
    ensures r.reply.Ok? <==>
      && Find(db.students, id).Some? && IsAdmin(caller) && ValidRequest(db, req)
      && RequestedUser(db, req).data.role == role
      && (StudentOfUser(db, req.userId.value).None? || StudentOfUser(db, req.userId.value).value.id == id)
    ensures r.reply.Ok? ==>
      && r.reply.code == StatusOk
      && r.reply.body == Row(id, Student(req.userId.value, req.classId, req.firstName.value, req.lastName.value,
                                         Find(db.students, id).value.data.matricule))
      && r.db == db.(students := Replace(db.students, id, r.reply.body.data))
    ensures WellFormed(db) ==> WellFormed(r.db)
  {
    match Find(db.students, id)
    case None => Refuse(db, StatusNotFound)
    case Some(current) =>
      if !IsAdmin(caller) then Refuse(db, StatusForbidden)
      else if !ValidRequest(db, req) then Refuse(db, StatusUnprocessable)
      else if RequestedUser(db, req).data.role != role then Refuse(db, StatusUnprocessable)
      else if StudentOfUser(db, req.userId.value).Some? && StudentOfUser(db, req.userId.value).value.id != id then
        Refuse(db, StatusUnprocessable)
      else
        var s := Student(req.userId.value, req.classId, req.firstName.value, req.lastName.value, current.data.matricule);
        if WellFormed(db) then
          OwnerIsFirst(db, req.userId.value, id);
          RelinkKeepsWellFormed(db, id, s);
          Outcome(Ok(StatusOk, Row(id, s)), db.(students := Replace(db.students, id, s)))
        else Outcome(Ok(StatusOk, Row(id, s)), db.(students := Replace(db.students, id, s)))
  }

  /** With one record per account, the account's record found by
      `User::student` is the only record it owns. */
  lemma OwnerIsFirst(db: Db, userId: nat, id: nat)
    requires WellFormed(db)
    requires StudentOfUser(db, userId).None? || StudentOfUser(db, userId).value.id == id
    ensures forall i :: 0 <= i < |db.students.rows| && db.students.rows[i].data.userId == userId ==>
      db.students.rows[i].id == id
  {
    forall i | 0 <= i < |db.students.rows| && db.students.rows[i].data.userId == userId
      ensures db.students.rows[i].id == id
    {
      assert db.students.rows[i] in db.students.rows;
    }
  }

  /** `update` as written: the linked account must have role `student`. */
  function Update(db: Db, caller: Row<User>, id: nat, req: StudentRequest): (r: Outcome<Row<Student>>)
    ensures r.reply.Err? ==> r.db == db
    ensures Find(db.students, id).None? ==> r.reply == Err(StatusNotFound)
    ensures Find(db.students, id).Some? && !IsAdmin(caller) ==> r.reply == Err(StatusForbidden)
    ensures Find(db.students, id).Some? && IsAdmin(caller) && !ValidRequest(db, req) ==> r.reply == Err(StatusUnprocessable)
    ensures (&& Find(db.students, id).Some? && IsAdmin(caller) && ValidRequest(db, req)
             && RequestedUser(db, req).data.role != RoleStudent) ==> r.reply == Err(StatusUnprocessable)
    ensures r.reply.Ok? <==>
      && Find(db.students, id).Some? && IsAdmin(caller) && ValidRequest(db, req)
      && RequestedUser(db, req).data.role == RoleStudent
      && (StudentOfUser(db, req.userId.value).None? || StudentOfUser(db, req.userId.value).value.id == id)
    ensures r.reply.Ok? ==>
      && r.reply.code == StatusOk
      && r.reply.body == Row(id, Student(req.userId.value, req.classId, req.firstName.value, req.lastName.value,
                                         Find(db.students, id).value.data.matricule))
      && r.db == db.(students := Replace(db.students, id, r.reply.body.data))
    ensures WellFormed(db) ==> WellFormed(r.db)
  {
    UpdateAs(db, caller, id, req, RoleStudent)
  }

  /** `update` as evidently intended: the linked account must be a
      student's account (`etudiant`). */
  function UpdateIntended(db: Db, caller: Row<User>, id: nat, req: StudentRequest): (r: Outcome<Row<Student>>)
    ensures r.reply.Err? ==> r.db == db
    ensures Find(db.students, id).None? ==> r.reply == Err(StatusNotFound)
    ensures Find(db.students, id).Some? && !IsAdmin(caller) ==> r.reply == Err(StatusForbidden)
    ensures Find(db.students, id).Some? && IsAdmin(caller) && !ValidRequest(db, req) ==> r.reply == Err(StatusUnprocessable)
    ensures (&& Find(db.students, id).Some? && IsAdmin(caller) && ValidRequest(db, req)
             && RequestedUser(db, req).data.role != RoleEtudiant) ==> r.reply == Err(StatusUnprocessable)
    ensures r.reply.Ok? <==>
      && Find(db.students, id).Some? && IsAdmin(caller) && ValidRequest(db, req)
      && RequestedUser(db, req).data.role == RoleEtudiant
      && (StudentOfUser(db, req.userId.value).None? || StudentOfUser(db, req.userId.value).value.id == id)
    ensures r.reply.Ok? ==>
      && r.reply.code == StatusOk
      && r.reply.body == Row(id, Student(req.userId.value, req.classId, req.firstName.value, req.lastName.value,
                                         Find(db.students, id).value.data.matricule))
      && r.db == db.(students := Replace(db.students, id, r.reply.body.data))
    ensures WellFormed(db) ==> WellFormed(r.db)
  {
    UpdateAs(db, caller, id, req, RoleEtudiant)
  }

  /** `destroy`: binding 404, role check, then exactly that record is gone. */
  function Destroy(db: Db, caller: Row<User>, id: nat): (r: Outcome<()>)
    ensures r.reply.Err? ==> r.db == db
    ensures Find(db.students, id).None? ==> r.reply == Err(StatusNotFound)
    ensures Find(db.students, id).Some? && !IsAdmin(caller) ==> r.reply == Err(StatusForbidden)
    ensures r.reply.Ok? <==> Find(db.students, id).Some? && IsAdmin(caller)
    ensures r.reply.Ok? ==>
      && r.reply.code == StatusNoContent
      && r.db == db.(students := r.db.students)
      && Find(r.db.students, id).None?
      && (forall i :: 0 <= i < |db.students.rows| && db.students.rows[i].id != id ==> db.students.rows[i] in r.db.students.rows)
      && (forall i :: 0 <= i < |r.db.students.rows| ==> r.db.students.rows[i] in db.students.rows)
    ensures r.reply.Ok? && Valid(db.students) ==> |r.db.students.rows| == |db.students.rows| - 1
    ensures WellFormed(db) ==> WellFormed(r.db)
  {
    if Find(db.students, id).None? then Refuse(db, StatusNotFound)
    else if !IsAdmin(caller) then Refuse(db, StatusForbidden)
    else
      DeleteSubset(db.students, id);
      Outcome(Ok(StatusNoContent, ()), db.(students := Delete(db.students, id)))
  }

  /** `assignClass`: binding 404, role check, `class_id` must exist; then
      only the class of that record changes. */
  function AssignClass(db: Db, caller: Row<User>, id: nat, classId: Option<nat>): (r: Outcome<Row<Student>>)
    ensures r.reply.Err? ==> r.db == db
    ensures Find(db.students, id).None? ==> r.reply == Err(StatusNotFound)
    ensures Find(db.students, id).Some? && !IsAdmin(caller) ==> r.reply == Err(StatusForbidden)
    ensures Find(db.students, id).Some? && IsAdmin(caller) && !RequiredKey(db.classes, classId) ==>
      r.reply == Err(StatusUnprocessable)
    ensures r.reply.Ok? <==> Find(db.students, id).Some? && IsAdmin(caller) && RequiredKey(db.classes, classId)
    ensures r.reply.Ok? ==>
      && r.reply.code == StatusOk
      && r.reply.body == Row(id, Find(db.students, id).value.data.(classId := classId))
      && r.db == db.(students := Replace(db.students, id, r.reply.body.data))
    ensures WellFormed(db) ==> WellFormed(r.db)
  {
    match Find(db.students, id)
    case None => Refuse(db, StatusNotFound)
    case Some(current) =>
      if !IsAdmin(caller) then Refuse(db, StatusForbidden)
      else if !RequiredKey(db.classes, classId) then Refuse(db, StatusUnprocessable)
      else
        var s := current.data.(classId := classId);
        if WellFormed(db) then
          OwnerIsFirst(db, s.userId, id);
          RelinkKeepsWellFormed(db, id, s);
          Outcome(Ok(StatusOk, Row(id, s)), db.(students := Replace(db.students, id, s)))
        else Outcome(Ok(StatusOk, Row(id, s)), db.(students := Replace(db.students, id, s)))
  }

  // ---------------------------------------------------------------------
  // Self-enrolment

  /** The body of `enroll` with the role it demands of the caller as a
      parameter: role check, then "already enrolled", then validation; the
      record belongs to the caller and gets the next matricule. */
  function EnrollAs(db: Db, caller: Row<User>, req: EnrollRequest, role: string): (r: Outcome<Row<Student>>)
    ensures r.reply.Err? ==> r.db == db
    ensures caller.data.role != role ==> r.reply == Err(StatusForbidden)
    ensures caller.data.role == role && StudentOfUser(db, caller.id).Some? ==> r.reply == Err(StatusUnprocessable)
    ensures caller.data.role == role && StudentOfUser(db, caller.id).None? && !ValidEnrollment(db, req) ==>
      r.reply == Err(StatusUnprocessable)
    ensures r.reply.Ok? <==> caller.data.role == role && StudentOfUser(db, caller.id).None? && ValidEnrollment(db, req)
    ensures r.reply.Ok? ==>
      && r.reply.code == StatusCreated
      && r.reply.body.id == db.students.next
      && r.reply.body.data.userId == caller.id
      && r.reply.body.data.classId == req.classId
      && r.reply.body.data.firstName == req.firstName.value
      && r.reply.body.data.lastName == req.lastName.value
      && r.reply.body.data.matricule == NextMatricule(db.students.rows)
      && Number(r.reply.body.data.matricule) == NextNumber(db.students.rows)
      && r.db == db.(students := Insert(db.students, r.reply.body.data))
    ensures WellFormed(db) ==> WellFormed(r.db)
  {
    if caller.data.role != role then Refuse(db, StatusForbidden)
    else if StudentOfUser(db, caller.id).Some? then Refuse(db, StatusUnprocessable)
    else if !ValidEnrollment(db, req) then Refuse(db, StatusUnprocessable)
    else
      var s := NewStudent(db, caller.id, req.classId.value, req.firstName.value, req.lastName.value);
      if WellFormed(db) then
        AddKeepsWellFormed(db, s);
        Outcome(Ok(StatusCreated, Row(db.students.next, s)), db.(students := Insert(db.students, s)))
      else Outcome(Ok(StatusCreated, Row(db.students.next, s)), db.(students := Insert(db.students, s)))
  }

  /** `enroll` as written: only role `student` is admitted. */
  function Enroll(db: Db, caller: Row<User>, req: EnrollRequest): (r: Outcome<Row<Student>>)
    ensures r.reply.Err? ==> r.db == db
    ensures caller.data.role != RoleStudent ==> r.reply == Err(StatusForbidden)
    ensures caller.data.role == RoleStudent && StudentOfUser(db, caller.id).Some? ==> r.reply == Err(StatusUnprocessable)
    ensures caller.data.role == RoleStudent && StudentOfUser(db, caller.id).None? && !ValidEnrollment(db, req) ==>
      r.reply == Err(StatusUnprocessable)
    ensures r.reply.Ok? <==> caller.data.role == RoleStudent && StudentOfUser(db, caller.id).None? && ValidEnrollment(db, req)
    ensures r.reply.Ok? ==>
      && r.reply.code == StatusCreated
      && r.reply.body.id == db.students.next
      && r.reply.body.data.userId == caller.id
      && r.reply.body.data.classId == req.classId
      && r.reply.body.data.firstName == req.firstName.value
      && r.reply.body.data.lastName == req.lastName.value
      && r.reply.body.data.matricule == NextMatricule(db.students.rows)
      && Number(r.reply.body.data.matricule) == NextNumber(db.students.rows)
      && r.db == db.(students := Insert(db.students, r.reply.body.data))
    ensures WellFormed(db) ==> WellFormed(r.db)
  {
    EnrollAs(db, caller, req, RoleStudent)
  }

  /** `enroll` as evidently intended: student accounts (`etudiant`) enrol. */
  function EnrollIntended(db: Db, caller: Row<User>, req: EnrollRequest): (r: Outcome<Row<Student>>)
    ensures r.reply.Err? ==> r.db == db
    ensures caller.data.role != RoleEtudiant ==> r.reply == Err(StatusForbidden)
    ensures caller.data.role == RoleEtudiant && StudentOfUser(db, caller.id).Some? ==> r.reply == Err(StatusUnprocessable)
    ensures caller.data.role == RoleEtudiant && StudentOfUser(db, caller.id).None? && !ValidEnrollment(db, req) ==>
      r.reply == Err(StatusUnprocessable)
    ensures r.reply.Ok? <==> caller.data.role == RoleEtudiant && StudentOfUser(db, caller.id).None? && ValidEnrollment(db, req)
    ensures r.reply.Ok? ==>
      && r.reply.code == StatusCreated
      && r.reply.body.id == db.students.next
      && r.reply.body.data.userId == caller.id
      && r.reply.body.data.classId == req.classId
      && r.reply.body.data.firstName == req.firstName.value
      && r.reply.body.data.lastName == req.lastName.value
      && r.reply.body.data.matricule == NextMatricule(db.students.rows)
      && Number(r.reply.body.data.matricule) == NextNumber(db.students.rows)
      && r.db == db.(students := Insert(db.students, r.reply.body.data))
    ensures WellFormed(db) ==> WellFormed(r.db)
  {
    EnrollAs(db, caller, req, RoleEtudiant)
  }

  // ---------------------------------------------------------------------
  // Properties

  /** A record just created is what `show` answers for its id. */
  lemma StoreThenShow(db: Db, caller: Row<User>, req: StudentRequest)
    requires WellFormed(db)
    requires Store(db, caller, req).reply.Ok?
    ensures var created := Store(db, caller, req);
      Show(created.db, caller, created.reply.body.id) == Ok(StatusOk, created.reply.body)
  {
    var created := Store(db, caller, req);
    var rows := created.db.students.rows;
    assert rows[|db.students.rows|] == created.reply.body;
  }

  /** No account of a well-formed database has role `student`: the
      registration rules only hand out admin, enseignant and etudiant. */
  lemma NoStudentRole(db: Db, u: Row<User>)
    requires WellFormed(db) && u in db.users.rows
    ensures u.data.role != RoleStudent
  {
    assert RolesValid(db.users);
  }

  /** As written, `enroll` refuses every registered account with 403. */
  lemma EnrollNeverAdmits(db: Db, caller: Row<User>, req: EnrollRequest)
    requires WellFormed(db) && caller in db.users.rows
    ensures Enroll(db, caller, req) == Refuse(db, StatusForbidden)
  {
    NoStudentRole(db, caller);
  }

  /** As written, `update` never succeeds in a well-formed database: the
      account it links must have role `student`, which no account has. */
  lemma UpdateNeverSucceeds(db: Db, caller: Row<User>, id: nat, req: StudentRequest)
    requires WellFormed(db)
    ensures Update(db, caller, id, req).reply.Err?
    ensures Update(db, caller, id, req).db == db
  {
    if Update(db, caller, id, req).reply.Ok? {
      NoStudentRole(db, RequestedUser(db, req));
    }
  }

  /** The intended `enroll` admits a student account without a record: it
      gets exactly one, which its `User::student` relation then finds, and
      a second attempt is refused as already enrolled. */
  lemma EnrollIntendedOnce(db: Db, caller: Row<User>, req: EnrollRequest)
    requires WellFormed(db)
    requires caller.data.role == RoleEtudiant && StudentOfUser(db, caller.id).None? && ValidEnrollment(db, req)
    ensures EnrollIntended(db, caller, req).reply.Ok?
    ensures StudentOfUser(EnrollIntended(db, caller, req).db, caller.id) == Some(EnrollIntended(db, caller, req).reply.body)
    ensures EnrollIntended(EnrollIntended(db, caller, req).db, caller, req).reply == Err(StatusUnprocessable)
  {
    var after := EnrollIntended(db, caller, req).db;
    var body := EnrollIntended(db, caller, req).reply.body;
    assert after.students.rows[|db.students.rows|] == body;
    forall i | 0 <= i < |db.students.rows|
      ensures db.students.rows[i].data.userId != caller.id
    {
    }
    FirstOfSnoc(db.students.rows, body, caller.id);
  }

  /** `User::student` on records extended by one that the account owns,
      when none of the earlier ones is the account's. */
  lemma FirstOfSnoc(rows: seq<Row<Student>>, s: Row<Student>, userId: nat)
    requires forall i :: 0 <= i < |rows| ==> rows[i].data.userId != userId
    requires s.data.userId == userId
    ensures Tally.First(rows + [s], OwnedBy(userId)) == Some(s)
  {
    if rows != [] {
      assert (rows + [s])[1..] == rows[1..] + [s];
      FirstOfSnoc(rows[1..], s, userId);
    }
  }

  /** Two successive creations carry consecutive matricule numbers. */
  lemma StoreNumbersConsecutive(db: Db, caller: Row<User>, first: StudentRequest, second: StudentRequest)
    requires WellFormed(db)
    requires Store(db, caller, first).reply.Ok?
    requires Store(Store(db, caller, first).db, caller, second).reply.Ok?
    ensures var a := Store(db, caller, first);
      var b := Store(a.db, caller, second);
      Number(b.reply.body.data.matricule) == Number(a.reply.body.data.matricule) + 1
  {
    var a := Store(db, caller, first);
    var created := a.reply.body;
    assert created.data == NewStudent(db, first.userId.value, first.classId.value, first.firstName.value, first.lastName.value);
    NextNumberAdvances(db.students.rows, created);
  }

  /** Every administrator-only action refuses a non-administrator with 403
      once the target exists, and writes nothing. */
  lemma AdminOnly(db: Db, caller: Row<User>, id: nat, req: StudentRequest, classId: Option<nat>)
    requires !IsAdmin(caller) && Find(db.students, id).Some?
    ensures Store(db, caller, req) == Refuse(db, StatusForbidden)
    ensures Update(db, caller, id, req) == Refuse(db, StatusForbidden)
    ensures UpdateIntended(db, caller, id, req) == Refuse(db, StatusForbidden)
    ensures Destroy(db, caller, id) == Refuse(db, StatusForbidden)
    ensures AssignClass(db, caller, id, classId) == Refuse(db, StatusForbidden)
    ensures Index(db, caller) == Err(StatusForbidden) && Show(db, caller, id) == Err(StatusForbidden)
  {
  }
}

=== FILE: tables.dfy ===
/** Relational tables as immutable values: a table is its rows in insertion
    order together with its auto-increment counter. Lookup by primary key,
    insertion, in-place update and deletion are defined once here and used by
    every controller. */
module Tables {

  import opened Optional
  import opened Tally

  /** A stored row: its primary key and its columns. */
  datatype Row<T> = Row(id: nat, data: T)

  /** Rows in insertion order and the id the next insertion receives. */
  datatype Table<T> = Table(rows: seq<Row<T>>, next: nat)

  /** Ids strictly increase along the rows. */
  predicate Ascending<T>(rows: seq<Row<T>>) {
    forall i, j :: 0 <= i < j < |rows| ==> rows[i].id < rows[j].id
  }

  /** The shape auto-increment keys give a table: ascending ids, all below
      the counter. */
  predicate Valid<T>(t: Table<T>) {
    && Ascending(t.rows)
    && (forall i :: 0 <= i < |t.rows| ==> t.rows[i].id < t.next)
  }

  /** A table with no rows whose first id is 1. */
  function Empty<T>(): (t: Table<T>)
    ensures Valid(t) && t.rows == []
  {
    Table([], 1)
  }

  /** Dropping the first row keeps the ids ascending. */
  lemma AscendingTail<T>(rows: seq<Row<T>>)
    requires Ascending(rows) && rows != []
    ensures Ascending(rows[1..])
  {
    forall i, j | 0 <= i < j < |rows[1..]|
      ensures rows[1..][i].id < rows[1..][j].id
    {
      assert rows[1..][i] == rows[i + 1] && rows[1..][j] == rows[j + 1];
    }
  }

  /** The row whose primary key is `id`, if there is one. */
  function FindIn<T>(rows: seq<Row<T>>, id: nat): (r: Option<Row<T>>)
    ensures r.Some? <==> exists i :: 0 <= i < |rows| && rows[i].id == id
    ensures r.Some? ==> r.value in rows && r.value.id == id
    ensures Ascending(rows) ==> forall i :: 0 <= i < |rows| && rows[i].id == id ==> r == Some(rows[i])
  {
    if rows == [] then None
    else if rows[0].id == id then Some(rows[0])
    else
      var r := FindIn(rows[1..], id);
      assert forall i :: 0 < i < |rows| ==> rows[i] == rows[1..][i - 1];
      if Ascending(rows) then AscendingTail(rows); r else r
  }

  /** Lookup by primary key (`find`, `findOrFail`, route-model binding). */
  function Find<T>(t: Table<T>, id: nat): (r: Option<Row<T>>)
    ensures r.Some? <==> exists i :: 0 <= i < |t.rows| && t.rows[i].id == id
    ensures r.Some? ==> r.value in t.rows && r.value.id == id
    ensures Valid(t) ==> forall i :: 0 <= i < |t.rows| && t.rows[i].id == id ==> r == Some(t.rows[i])
    ensures Valid(t) && r.Some? ==> id < t.next
  {
    FindIn(t.rows, id)
  }

  /** `create`: the new row takes the counter's id and goes last. */
  function Insert<T>(t: Table<T>, data: T): (r: Table<T>)
    ensures r.rows == t.rows + [Row(t.next, data)]
    ensures r.next == t.next + 1
    ensures Valid(t) ==> Valid(r)
    ensures Valid(t) ==> Find(t, t.next).None?
  {
    Table(t.rows + [Row(t.next, data)], t.next + 1)
  }

  /** The rows whose key is not `id`, in order. */
  function Without<T>(rows: seq<Row<T>>, id: nat): (r: seq<Row<T>>)
    ensures |r| <= |rows|
    ensures forall i :: 0 <= i < |r| ==> r[i] in rows && r[i].id != id
    ensures forall i :: 0 <= i < |rows| && rows[i].id != id ==> rows[i] in r
  {
    if rows == [] then []
    else
      assert forall i :: 0 < i < |rows| ==> rows[i] == rows[1..][i - 1];
      (if rows[0].id != id then [rows[0]] else []) + Without(rows[1..], id)
  }

  /** A row whose key is below every key of ascending rows can go first. */
  lemma ConsAscending<T>(x: Row<T>, rest: seq<Row<T>>)
    requires Ascending(rest)
    requires forall k :: 0 <= k < |rest| ==> x.id < rest[k].id
    ensures Ascending([x] + rest)
  {
    var s := [x] + rest;
    forall i, j | 0 <= i < j < |s|
      ensures s[i].id < s[j].id
    {
      assert s[j] == rest[j - 1];
      if i > 0 {
        assert s[i] == rest[i - 1];
      }
    }
  }

  /** Removing rows keeps the remaining ids ascending. */
  lemma {:induction false} WithoutAscending<T>(rows: seq<Row<T>>, id: nat)
    requires Ascending(rows)
    ensures Ascending(Without(rows, id))
  {
    if rows != [] {
      AscendingTail(rows);
      WithoutAscending(rows[1..], id);
      var rest := Without(rows[1..], id);
      if rows[0].id != id {
        forall k | 0 <= k < |rest|
          ensures rows[0].id < rest[k].id
        {
          var j :| 0 <= j < |rows[1..]| && rows[1..][j] == rest[k];
          assert rows[1..][j] == rows[j + 1];
        }
        ConsAscending(rows[0], rest);
      }
    }
  }

  /** With ascending ids, removing a present key drops exactly one row. */
  lemma {:induction false} WithoutDropsOne<T>(rows: seq<Row<T>>, id: nat, k: nat)
    requires Ascending(rows) && k < |rows| && rows[k].id == id
    ensures |Without(rows, id)| == |rows| - 1
  {
    AscendingTail(rows);
    if k == 0 {
      WithoutAbsent(rows[1..], id);
    } else {
      assert rows[1..][k - 1] == rows[k];
      WithoutDropsOne(rows[1..], id, k - 1);
    }
  }

  /** Removing a key no row carries changes nothing. */
  lemma {:induction false} WithoutAbsent<T>(rows: seq<Row<T>>, id: nat)
    requires forall i :: 0 <= i < |rows| ==> rows[i].id != id
    ensures Without(rows, id) == rows
  {
    if rows != [] {
      assert forall i :: 0 <= i < |rows[1..]| ==> rows[1..][i] == rows[i + 1];
      WithoutAbsent(rows[1..], id);
      assert rows == [rows[0]] + rows[1..];
    }
  }

  /** With ascending ids, removing a key that is found drops one row. */
  lemma WithoutFound<T>(rows: seq<Row<T>>, id: nat)
    requires Ascending(rows)
    ensures FindIn(rows, id).Some? ==> |Without(rows, id)| == |rows| - 1
  {
    if FindIn(rows, id).Some? {
      var k :| 0 <= k < |rows| && rows[k].id == id;
      WithoutDropsOne(rows, id, k);
    }
  }

  /** `delete`: hard removal of the row with key `id`. */
  function Delete<T>(t: Table<T>, id: nat): (r: Table<T>)
    ensures r.next == t.next
    ensures forall i :: 0 <= i < |r.rows| ==> r.rows[i] in t.rows && r.rows[i].id != id
    ensures forall i :: 0 <= i < |t.rows| && t.rows[i].id != id ==> t.rows[i] in r.rows
    ensures Find(r, id).None?
    ensures Valid(t) ==> Valid(r)
    ensures Valid(t) && Find(t, id).Some? ==> |r.rows| == |t.rows| - 1
  {
    var r := Table(Without(t.rows, id), t.next);
    if Valid(t) then
      WithoutAscending(t.rows, id);
      WithoutFound(t.rows, id);
      r
    else r
  }

  /** Every row left after a deletion was there before. */
  lemma DeleteSubset<T>(t: Table<T>, id: nat)
    ensures forall a :: a in Delete(t, id).rows ==> a in t.rows
  {
    var r := Delete(t, id).rows;
    forall a | a in r
      ensures a in t.rows
    {
      var i :| 0 <= i < |r| && r[i] == a;
    }
  }

  /** `update`: the row with key `id` gets new columns; its position, its
      key and every other row stay as they were. */
  function Replace<T>(t: Table<T>, id: nat, data: T): (r: Table<T>)
    ensures r.next == t.next && |r.rows| == |t.rows|
    ensures forall i :: 0 <= i < |t.rows| ==> r.rows[i].id == t.rows[i].id
    ensures forall i :: 0 <= i < |t.rows| && t.rows[i].id != id ==> r.rows[i] == t.rows[i]
    ensures forall i :: 0 <= i < |t.rows| && t.rows[i].id == id ==> r.rows[i] == Row(id, data)
    ensures Valid(t) ==> Valid(r)
  {
    Table(seq(|t.rows|, i requires 0 <= i < |t.rows| => if t.rows[i].id == id then Row(id, data) else t.rows[i]), t.next)
  }

  /** A filtered selection keeps the ids ascending. */
  lemma {:induction false} FilterAscending<T>(rows: seq<Row<T>>, p: Row<T> -> bool)
    requires Ascending(rows)
    ensures Ascending(Filter(rows, p))
  {
    if rows != [] {
      var init := rows[..|rows| - 1];
      var last := rows[|rows| - 1];
      assert rows == init + [last];
      FilterAscending(init, p);
      var f := Filter(init, p);
      forall k | 0 <= k < |f|
        ensures f[k].id < last.id
      {
        var j :| 0 <= j < |init| && init[j] == f[k];
      }
    }
  }

  /** Reversing ascending rows lists the newest (highest id) first. */
  lemma ReverseDescending<T>(rows: seq<Row<T>>)
    requires Ascending(rows)
    ensures forall i, j :: 0 <= i < j < |Reverse(rows)| ==> Reverse(rows)[i].id > Reverse(rows)[j].id
  {
  }

  /** After an update the key finds the new columns, and repeating the
      same update changes nothing. */
  lemma ReplaceAgain<T>(t: Table<T>, id: nat, data: T)
    requires Valid(t) && Find(t, id).Some?
    ensures Find(Replace(t, id, data), id) == Some(Row(id, data))
    ensures Replace(Replace(t, id, data), id, data) == Replace(t, id, data)
  {
    var k :| 0 <= k < |t.rows| && t.rows[k].id == id;
    var r := Replace(t, id, data);
    assert r.rows[k] == Row(id, data);
  }

  /** The row with the largest key (`orderBy('id', 'desc')->first()`). */
  function Highest<T>(rows: seq<Row<T>>): (r: Option<Row<T>>)
    ensures r.Some? <==> rows != []
    ensures r.Some? ==> r.value in rows
    ensures r.Some? ==> forall i :: 0 <= i < |rows| ==> rows[i].id <= r.value.id
  {
    if rows == [] then None
    else
      var init := rows[..|rows| - 1];
      var last := rows[|rows| - 1];
      assert rows == init + [last];
      match Highest(init)
      case None => Some(last)
      case Some(h) => if last.id > h.id then Some(last) else Some(h)
  }
}

=== FILE: tally.dfy ===
/** Filtering, counting and grouping over sequences: the vocabulary the
    aggregation actions are written in, with the partition lemmas that relate
    per-group counts to overall totals.

    Predicates handed to `Filter` are built by the named functions below
    (`KeyIs`, `InKeys`, `OutKeys`) rather than by lambdas written at each use,
    so that two mentions of "the elements whose key is k" denote the same
    predicate. */
module Tally {

  import opened Optional

  /** No element occurs twice. */
  predicate NoDups<K(==)>(ks: seq<K>) {
    forall i, j :: 0 <= i < j < |ks| ==> ks[i] != ks[j]
  }

  /** The elements of `xs` that satisfy `p`, in their original order. */
  function Filter<T>(xs: seq<T>, p: T -> bool): (r: seq<T>)
    ensures |r| <= |xs|
    ensures forall i :: 0 <= i < |r| ==> r[i] in xs && p(r[i])
    ensures forall i :: 0 <= i < |xs| && p(xs[i]) ==> xs[i] in r
  {
    if xs == [] then []
    else
      assert xs == xs[..|xs| - 1] + [xs[|xs| - 1]];
      var init := Filter(xs[..|xs| - 1], p);
      if p(xs[|xs| - 1]) then init + [xs[|xs| - 1]] else init
  }

  /** When no element satisfies `p`, nothing is kept. */
  lemma FilterNone<T>(xs: seq<T>, p: T -> bool)
    requires forall i :: 0 <= i < |xs| ==> !p(xs[i])
    ensures Filter(xs, p) == []
  {
    var r := Filter(xs, p);
    if r != [] {
      var j :| 0 <= j < |xs| && xs[j] == r[0];
    }
  }

  /** How many elements of `xs` satisfy `p`. */
  function Count<T>(xs: seq<T>, p: T -> bool): nat {
    |Filter(xs, p)|
  }

  /** Count over a sequence that ends in `x`. */
  lemma CountSnoc<T>(xs: seq<T>, x: T, p: T -> bool)
    ensures Count(xs + [x], p) == Count(xs, p) + (if p(x) then 1 else 0)
  {
    assert (xs + [x])[..|xs + [x]| - 1] == xs;
  }

  /** Two predicates that split every element between them split the count. */
  lemma {:induction false} CountSplit<T>(xs: seq<T>, p: T -> bool, q: T -> bool)
    requires forall x :: x in xs ==> (p(x) <==> !q(x))
    ensures Count(xs, p) + Count(xs, q) == |xs|
  {
    if xs != [] {
      var init := xs[..|xs| - 1];
      assert xs == init + [xs[|xs| - 1]];
      CountSplit(init, p, q);
      CountSnoc(init, xs[|xs| - 1], p);
      CountSnoc(init, xs[|xs| - 1], q);
    }
  }

  /** A stronger predicate never counts more. */
  lemma {:induction false} CountMono<T>(xs: seq<T>, p: T -> bool, q: T -> bool)
    requires forall x :: x in xs && p(x) ==> q(x)
    ensures Count(xs, p) <= Count(xs, q)
  {
    if xs != [] {
      var init := xs[..|xs| - 1];
      assert xs == init + [xs[|xs| - 1]];
      CountMono(init, p, q);
      CountSnoc(init, xs[|xs| - 1], p);
      CountSnoc(init, xs[|xs| - 1], q);
    }
  }

  /** Holds of the elements whose key is `k`. */
  function KeyIs<T, K(==)>(key: T -> K, k: K): T -> bool {
    x => key(x) == k
  }

  /** Holds of the elements whose key is one of `ks`. */
  function InKeys<T, K(==)>(key: T -> K, ks: seq<K>): T -> bool {
    x => key(x) in ks
  }

  /** Holds of the elements whose key is none of `ks`. */
  function OutKeys<T, K(==)>(key: T -> K, ks: seq<K>): T -> bool {
    x => key(x) !in ks
  }

  /** `r` is `a / b`, or 0 when `b` is 0. */
  predicate IsRatio(r: real, a: nat, b: nat) {
    && (b == 0 ==> r == 0.0)
    && (b > 0 ==> r * (b as real) == a as real)
  }

  /** The ratio `a / b`, or 0 when `b` is 0: the zero-guarded divisions of the statistics actions. */
  function Ratio(a: nat, b: nat): (r: real)
    ensures IsRatio(r, a, b)
    ensures a <= b ==> 0.0 <= r <= 1.0
  {
    if b > 0 then (a as real) / (b as real) else 0.0
  }

  /** `r` is `a / b` as a percentage, or 0 when `b` is 0. */
  predicate IsPercent(r: real, a: nat, b: nat) {
    && (b == 0 ==> r == 0.0)
    && (b > 0 ==> r * (b as real) == 100.0 * (a as real))
  }

  /** `(a / b) * 100`, or 0 when `b` is 0. */
  function Percent(a: nat, b: nat): (r: real)
    ensures IsPercent(r, a, b)
    ensures a <= b ==> 0.0 <= r <= 100.0
  {
    var q := Ratio(a, b);
    assert b > 0 ==> (100.0 * q) * (b as real) == 100.0 * (q * (b as real));
    100.0 * q
  }

  /** The elements of `xs` whose key is `k`, in order. */
  function Group<T, K(==)>(xs: seq<T>, key: T -> K, k: K): (r: seq<T>)
    ensures forall i :: 0 <= i < |r| ==> r[i] in xs && key(r[i]) == k
    ensures forall i :: 0 <= i < |xs| && key(xs[i]) == k ==> xs[i] in r
  {
    Filter(xs, KeyIs(key, k))
  }

  /** Size of the group of key `k`. */
  function CountKey<T, K(==)>(xs: seq<T>, key: T -> K, k: K): nat {
    |Group(xs, key, k)|
  }

  /** Number of elements whose key is among `ks`. */
  function CountKeyIn<T, K(==)>(xs: seq<T>, key: T -> K, ks: seq<K>): nat {
    Count(xs, InKeys(key, ks))
  }

  /** Number of elements whose key is none of `ks`. */
  function CountKeyOut<T, K(==)>(xs: seq<T>, key: T -> K, ks: seq<K>): nat {
    Count(xs, OutKeys(key, ks))
  }

  /** Sum, over the keys `ks`, of the sizes of their groups. */
  function SumCounts<T, K(==)>(xs: seq<T>, key: T -> K, ks: seq<K>): nat {
    if ks == [] then 0 else CountKey(xs, key, ks[0]) + SumCounts(xs, key, ks[1..])
  }

  /** The distinct keys of `xs`, in order of first appearance (how a
      collection's `groupBy` orders its groups). */
  function Keys<T, K(==)>(xs: seq<T>, key: T -> K): (ks: seq<K>)
    ensures NoDups(ks)
    ensures forall i :: 0 <= i < |xs| ==> key(xs[i]) in ks
    ensures forall j :: 0 <= j < |ks| ==> exists i :: 0 <= i < |xs| && key(xs[i]) == ks[j]
  {
    if xs == [] then []
    else
      var init := xs[..|xs| - 1];
      var last := xs[|xs| - 1];
      assert xs == init + [last];
      var ks := Keys(init, key);
      var r := if key(last) in ks then ks else ks + [key(last)];
      forall i | 0 <= i < |xs|
        ensures key(xs[i]) in r
      {
        if i < |init| {
          assert xs[i] == init[i];
        }
      }
      forall j | 0 <= j < |r|
        ensures exists i :: 0 <= i < |xs| && key(xs[i]) == r[j]
      {
        if j < |ks| {
          var i :| 0 <= i < |init| && key(init[i]) == ks[j];
          assert xs[i] == init[i];
        } else {
          assert key(xs[|xs| - 1]) == r[j];
        }
      }
      r
  }

  /** Every element of `xs` with key `b` comes after one with key `a`. */
  predicate AppearsBefore<T, K(==)>(xs: seq<T>, key: T -> K, a: K, b: K) {
    forall i :: 0 <= i < |xs| && key(xs[i]) == b ==> exists h :: 0 <= h < i && key(xs[h]) == a
  }

  /** `Keys` lists the keys in order of first appearance: an earlier key
      shows up in `xs` before every occurrence of a later one. */
  lemma KeysInOrder<T, K>(xs: seq<T>, key: T -> K)
    ensures var ks := Keys(xs, key);
      forall j1, j2 :: 0 <= j1 < j2 < |ks| ==> AppearsBefore(xs, key, ks[j1], ks[j2])
  {
    var ks := Keys(xs, key);
    forall j1, j2 | 0 <= j1 < j2 < |ks|
      ensures AppearsBefore(xs, key, ks[j1], ks[j2])
    {
      forall i | 0 <= i < |xs| && key(xs[i]) == ks[j2]
        ensures exists h :: 0 <= h < i && key(xs[h]) == ks[j1]
      {
        KeyBefore(xs, key, j1, j2, i);
      }
    }
  }

  /** One instance of `KeysInOrder`, by induction on `xs`. */
  lemma {:induction false} KeyBefore<T, K>(xs: seq<T>, key: T -> K, j1: nat, j2: nat, i: nat)
    requires j1 < j2 < |Keys(xs, key)|
    requires i < |xs| && key(xs[i]) == Keys(xs, key)[j2]
    ensures exists h :: 0 <= h < i && key(xs[h]) == Keys(xs, key)[j1]
  {
    var init := xs[..|xs| - 1];
    var last := xs[|xs| - 1];
    assert xs == init + [last];
    var ks0 := Keys(init, key);
    var ks := Keys(xs, key);
    assert ks == if key(last) in ks0 then ks0 else ks0 + [key(last)];
    assert ks[j1] == ks0[j1];
    if i < |init| {
      assert xs[i] == init[i];
      assert key(init[i]) in ks0;
      assert ks[j2] == ks0[j2];
      KeyBefore(init, key, j1, j2, i);
      var h :| 0 <= h < i && key(init[h]) == ks0[j1];
      assert xs[h] == init[h];
    } else if j2 < |ks0| {
      assert ks[j2] == ks0[j2];
      var i0 :| 0 <= i0 < |init| && key(init[i0]) == ks0[j2];
      KeyBefore(init, key, j1, j2, i0);
      var h :| 0 <= h < i0 && key(init[h]) == ks0[j1];
      assert xs[h] == init[h];
    } else {
      var h :| 0 <= h < |init| && key(init[h]) == ks0[j1];
      assert xs[h] == init[h];
    }
  }

  /** Every element is either inside or outside a key list. */
  lemma InOutKeys<T, K>(xs: seq<T>, key: T -> K, ks: seq<K>)
    ensures CountKeyIn(xs, key, ks) + CountKeyOut(xs, key, ks) == |xs|
  {
    CountSplit(xs, InKeys(key, ks), OutKeys(key, ks));
  }

  /** Prepending a fresh key adds exactly that key's group. */
  lemma {:induction false} CountKeyInCons<T, K>(xs: seq<T>, key: T -> K, k: K, rest: seq<K>)
    requires k !in rest
    ensures CountKeyIn(xs, key, [k] + rest) == CountKey(xs, key, k) + CountKeyIn(xs, key, rest)
  {
    if xs != [] {
      var init := xs[..|xs| - 1];
      var last := xs[|xs| - 1];
      assert xs == init + [last];
      CountKeyInCons(init, key, k, rest);
      CountSnoc(init, last, InKeys(key, [k] + rest));
      CountSnoc(init, last, KeyIs(key, k));
      CountSnoc(init, last, InKeys(key, rest));
    }
  }

  /** Groups of distinct keys are disjoint, so their sizes add up to the
      number of elements carrying one of those keys. */
  lemma {:induction false} SumCountsDistinct<T, K>(xs: seq<T>, key: T -> K, ks: seq<K>)
    requires NoDups(ks)
    ensures SumCounts(xs, key, ks) == CountKeyIn(xs, key, ks)
  {
    if ks == [] {
      CountSplit(xs, InKeys(key, ks), OutKeys(key, ks));
      assert forall x :: x in xs ==> OutKeys(key, ks)(x);
      assert Filter(xs, OutKeys(key, ks)) == xs by { FilterAll(xs, OutKeys(key, ks)); }
    } else {
      assert NoDups(ks[1..]);
      assert ks == [ks[0]] + ks[1..];
      SumCountsDistinct(xs, key, ks[1..]);
      CountKeyInCons(xs, key, ks[0], ks[1..]);
    }
  }

  /** A predicate that holds throughout keeps everything. */
  lemma {:induction false} FilterAll<T>(xs: seq<T>, p: T -> bool)
    requires forall x :: x in xs ==> p(x)
    ensures Filter(xs, p) == xs
  {
    if xs != [] {
      var init := xs[..|xs| - 1];
      assert xs == init + [xs[|xs| - 1]];
      FilterAll(init, p);
    }
  }

  /** When the key list covers every element, the groups partition `xs`. */
  lemma CountKeyInCovering<T, K>(xs: seq<T>, key: T -> K, ks: seq<K>)
    requires forall x :: x in xs ==> key(x) in ks
    ensures CountKeyIn(xs, key, ks) == |xs|
  {
    FilterAll(xs, InKeys(key, ks));
  }

  /** The groups of `groupBy`, taken together, hold every element once. */
  lemma GroupsPartition<T, K>(xs: seq<T>, key: T -> K)
    ensures SumCounts(xs, key, Keys(xs, key)) == |xs|
  {
    SumCountsDistinct(xs, key, Keys(xs, key));
    CountKeyInCovering(xs, key, Keys(xs, key));
  }

  /** The first element of `xs` that satisfies `p`, if any. */
  function First<T>(xs: seq<T>, p: T -> bool): (r: Option<T>)
    ensures r.Some? <==> exists i :: 0 <= i < |xs| && p(xs[i])
    ensures r.Some? ==> r.value in xs && p(r.value)
  {
    if xs == [] then None
    else if p(xs[0]) then Some(xs[0])
    else
      var r := First(xs[1..], p);
      assert forall i :: 0 < i < |xs| ==> xs[i] == xs[1..][i - 1];
      r
  }

  /** The elements of `xs` in reverse order. */
  function Reverse<T>(xs: seq<T>): (r: seq<T>)
    ensures |r| == |xs|
    ensures forall i :: 0 <= i < |xs| ==> r[i] == xs[|xs| - 1 - i]
  {
    seq(|xs|, i requires 0 <= i < |xs| => xs[|xs| - 1 - i])
  }

  /** Reversal keeps the same elements. */
  lemma ReverseMembers<T>(xs: seq<T>)
    ensures forall i :: 0 <= i < |xs| ==> xs[i] in Reverse(xs) && Reverse(xs)[i] in xs
  {
    forall i | 0 <= i < |xs|
      ensures xs[i] in Reverse(xs) && Reverse(xs)[i] in xs
    {
      assert Reverse(xs)[|xs| - 1 - i] == xs[i];
    }
  }
}

=== FILE: teacher.dfy ===
/** TeacherController: a teacher's own profile, assigned classes and the
    attendance statistics of those classes. The caller is `None` when the
    request carries no authenticated user. */
module Teachers {

  import opened Optional
  import opened Tally
  import opened Tables
  import opened Schema
  import opened Http

  /** The caller is an authenticated user whose role is `enseignant`. */
  predicate IsTeacher(caller: Option<Row<User>>) {
    caller.Some? && caller.value.data.role == RoleEnseignant
  }

  datatype TeacherProfile = TeacherProfile(name: string, email: string, role: string)

  /** `getProfile`. */
  function GetProfile(caller: Option<Row<User>>): (r: Reply<TeacherProfile>)
    ensures r.Ok? <==> IsTeacher(caller)
    ensures r.Err? ==> r.code == StatusForbidden
    ensures r.Ok? ==>
      && r.code == StatusOk
      && r.body.name == caller.value.data.name
      && r.body.email == caller.value.data.email
      && r.body.role == RoleEnseignant
  {
    if !IsTeacher(caller) then Err(StatusForbidden)
    else
      var u := caller.value.data;
      Ok(StatusOk, TeacherProfile(u.name, u.email, u.role))
  }

  /** `getClasses`: the classes assigned to the teacher, each with its
      `students_count`. */
  function GetClasses(db: Db, caller: Option<Row<User>>): (r: Reply<seq<CountedClass>>)
    ensures r.Ok? <==> IsTeacher(caller)
    ensures r.Err? ==> r.code == StatusForbidden
    ensures r.Ok? ==> r.code == StatusOk
    ensures r.Ok? ==> forall i :: 0 <= i < |r.body| ==>
      && r.body[i].classe in db.classes.rows
      && Linked(db, r.body[i].classe.id, caller.value.id)
      && r.body[i].studentsCount == |StudentsOf(db, r.body[i].classe.id)|
    ensures r.Ok? ==> forall i :: 0 <= i < |db.classes.rows| && Linked(db, db.classes.rows[i].id, caller.value.id) ==>
      exists j :: 0 <= j < |r.body| && r.body[j].classe == db.classes.rows[i]
  {
    if !IsTeacher(caller) then Err(StatusForbidden)
    else
      var cs := AssignedClasses(db, caller.value.id);
      var r := WithStudentCounts(db, cs);
      assert forall i :: 0 <= i < |cs| ==> r[i].classe == cs[i];
      Ok(StatusOk, r)
  }

  /** The presences `getStats` looks at: those of students whose class is
      one of the teacher's classes. */
  function Watched(db: Db, userId: nat): (r: seq<Row<Presence>>)
    ensures forall i :: 0 <= i < |r| ==> r[i] in db.presences.rows && ClassOfPresence(db, r[i]) in AssignedKeys(db, userId)
    ensures forall i :: 0 <= i < |db.presences.rows| && ClassOfPresence(db, db.presences.rows[i]) in AssignedKeys(db, userId) ==>
      db.presences.rows[i] in r
  {
    Filter(db.presences.rows, InKeys(PresenceClass(db), AssignedKeys(db, userId)))
  }

  /** One element of `by_class`. */
  datatype ClassStat = ClassStat(className: Option<string>, total: nat, present: nat, absent: int, rate: real)

  datatype TeacherStats = TeacherStats(total: nat, present: nat, absent: nat, rate: real, byClass: seq<ClassStat>)

  /** The `class_name` of a group: the name of its class, `N/A` when the
      class row is gone. */
  function ClassName(db: Db, k: Option<nat>): (r: Option<string>)
    ensures k.Some? && Find(db.classes, k.value).Some? ==> r == Find(db.classes, k.value).value.data.name
    ensures k.None? || Find(db.classes, k.value).None? ==> r == Some("N/A")
  {
    match k
    case None => Some("N/A")
    case Some(id) =>
      match Find(db.classes, id)
      case Some(c) => c.data.name
      case None => Some("N/A")
  }

  /** The statistics line of the presences `ps` whose class key is `k`. */
  function StatOf(db: Db, ps: seq<Row<Presence>>, k: Option<nat>): (r: ClassStat)
    ensures r.total == CountKey(ps, PresenceClass(db), k)
    ensures r.present == Count(Group(ps, PresenceClass(db), k), IsPresent)
    ensures r.present <= r.total && r.absent == r.total - r.present
    ensures IsPercent(r.rate, r.present, r.total) && 0.0 <= r.rate <= 100.0
  {
    var g := Group(ps, PresenceClass(db), k);
    var present := Count(g, IsPresent);
    ClassStat(ClassName(db, k), |g|, present, |g| - present, Percent(present, |g|))
  }

  /** `by_class`: one line per key of `ks`, in order. */
  function ByClass(db: Db, ps: seq<Row<Presence>>, ks: seq<Option<nat>>): (r: seq<ClassStat>)
    ensures |r| == |ks|
    ensures forall i :: 0 <= i < |ks| ==> r[i] == StatOf(db, ps, ks[i])
  {
    if ks == [] then [] else [StatOf(db, ps, ks[0])] + ByClass(db, ps, ks[1..])
  }

  /** `getStats`. */
  function GetStats(db: Db, caller: Option<Row<User>>): (r: Reply<TeacherStats>)
    ensures r.Ok? <==> IsTeacher(caller)
    ensures r.Err? ==> r.code == StatusForbidden
    ensures r.Ok? ==> r.code == StatusOk
    ensures r.Ok? && AssignedClasses(db, caller.value.id) == [] ==> r.body == TeacherStats(0, 0, 0, 0.0, [])
    ensures r.Ok? ==>
      var ps := Watched(db, caller.value.id);
      var ks := Keys(ps, PresenceClass(db));
      && r.body.total == |ps|
      && r.body.present == Count(ps, IsPresent)
      && r.body.absent == Count(ps, IsAbsent)
      && IsPercent(r.body.rate, r.body.present, r.body.total)
      && |r.body.byClass| == |ks|
      && (forall i :: 0 <= i < |ks| ==> r.body.byClass[i] == StatOf(db, ps, ks[i]))
      && forall j1, j2 :: 0 <= j1 < j2 < |ks| ==> AppearsBefore(ps, PresenceClass(db), ks[j1], ks[j2])
  {
    if !IsTeacher(caller) then Err(StatusForbidden)
    else
      var uid := caller.value.id;
      var ps := Watched(db, uid);
      var ks := Keys(ps, PresenceClass(db));
      KeysInOrder(ps, PresenceClass(db));
      if AssignedClasses(db, uid) == [] then
        assert ps == [] by { FilterNone(db.presences.rows, InKeys(PresenceClass(db), AssignedKeys(db, uid))); }
        Ok(StatusOk, TeacherStats(0, 0, 0, 0.0, []))
      else
        var present := Count(ps, IsPresent);
        Ok(StatusOk, TeacherStats(|ps|, present, Count(ps, IsAbsent), Percent(present, |ps|), ByClass(db, ps, ks)))
  }

  // ---------------------------------------------------------------------
  // Properties

  function SumTotals(rows: seq<ClassStat>): nat {
    if rows == [] then 0 else rows[0].total + SumTotals(rows[1..])
  }

  lemma {:induction false} SumTotalsCounts(db: Db, ps: seq<Row<Presence>>, ks: seq<Option<nat>>)
    ensures SumTotals(ByClass(db, ps, ks)) == SumCounts(ps, PresenceClass(db), ks)
  {
    if ks != [] {
      SumTotalsCounts(db, ps, ks[1..]);
      assert ByClass(db, ps, ks)[1..] == ByClass(db, ps, ks[1..]);
    }
  }

  /** The `by_class` lines split the total: every watched presence is in
      exactly one line. */
  lemma ByClassPartitionsTotal(db: Db, caller: Option<Row<User>>)
    requires IsTeacher(caller)
    ensures SumTotals(GetStats(db, caller).body.byClass) == GetStats(db, caller).body.total
  {
    var ps := Watched(db, caller.value.id);
    var ks := Keys(ps, PresenceClass(db));
    if AssignedClasses(db, caller.value.id) != [] {
      SumTotalsCounts(db, ps, ks);
      GroupsPartition(ps, PresenceClass(db));
    }
  }

  /** Every `by_class` line is about one of the teacher's own classes. */
  lemma ByClassOnlyAssigned(db: Db, caller: Option<Row<User>>)
    requires IsTeacher(caller)
    ensures var ps := Watched(db, caller.value.id);
      forall k :: k in Keys(ps, PresenceClass(db)) ==> k in AssignedKeys(db, caller.value.id)
  {
    var ps := Watched(db, caller.value.id);
    var ks := Keys(ps, PresenceClass(db));
    forall k | k in ks
      ensures k in AssignedKeys(db, caller.value.id)
    {
      var j :| 0 <= j < |ks| && ks[j] == k;
      var i :| 0 <= i < |ps| && PresenceClass(db)(ps[i]) == k;
    }
  }

  /** With valid statuses, `present` and `absent` make up the total. */
  lemma PresentAbsentMakeTotal(db: Db, caller: Option<Row<User>>)
    requires WellFormed(db) && IsTeacher(caller)
    ensures GetStats(db, caller).body.present + GetStats(db, caller).body.absent == GetStats(db, caller).body.total
    ensures 0.0 <= GetStats(db, caller).body.rate <= 100.0
  {
    var ps := Watched(db, caller.value.id);
    assert StatusesValid(db.presences);
    CountSplit(ps, IsPresent, IsAbsent);
  }
}

=== FILE: teacher_classes.dfy ===
/** TeacherClassesController: the teacher's classes with the names of
    their students, the list a teacher takes attendance from. */
module TeacherClasses {

  import opened Optional
  import opened Tables
  import opened Schema
  import opened Http
  import Teachers

  datatype Pupil = Pupil(id: nat, firstName: string, lastName: string)

  /** One class of the reply; a class without a name is called `Inconnu`. */
  datatype Group = Group(id: nat, name: string, students: seq<Pupil>)

  function PupilOf(s: Row<Student>): Pupil {
    Pupil(s.id, s.data.firstName, s.data.lastName)
  }

  function GroupOf(db: Db, c: Row<Classe>): (r: Group)
    ensures r.id == c.id
    ensures c.data.name.Some? ==> r.name == c.data.name.value
    ensures c.data.name.None? ==> r.name == "Inconnu"
    ensures |r.students| == |StudentsOf(db, c.id)|
    ensures forall i :: 0 <= i < |r.students| ==> r.students[i] == PupilOf(StudentsOf(db, c.id)[i])
  {
    var ss := StudentsOf(db, c.id);
    Group(c.id, c.data.name.GetOr("Inconnu"), seq(|ss|, i requires 0 <= i < |ss| => PupilOf(ss[i])))
  }

  /** `TeacherPresence`. */
  function TeacherPresence(db: Db, caller: Option<Row<User>>): (r: Reply<seq<Group>>)
    ensures r.Ok? <==> Teachers.IsTeacher(caller)
    ensures r.Err? ==> r.code == StatusForbidden
    ensures r.Ok? ==> r.code == StatusOk
    ensures r.Ok? ==> forall i :: 0 <= i < |r.body| ==>
      exists c :: c in db.classes.rows && Linked(db, c.id, caller.value.id) && r.body[i] == GroupOf(db, c)
    ensures r.Ok? ==> forall c :: c in db.classes.rows && Linked(db, c.id, caller.value.id) ==>
      GroupOf(db, c) in r.body
  {
    if !Teachers.IsTeacher(caller) then Err(StatusForbidden)
    else
      var cs := AssignedClasses(db, caller.value.id);
      var r := seq(|cs|, i requires 0 <= i < |cs| => GroupOf(db, cs[i]));
      assert forall i :: 0 <= i < |cs| ==> r[i] == GroupOf(db, cs[i]) && cs[i] in db.classes.rows;
      forall c | c in db.classes.rows && Linked(db, c.id, caller.value.id)
        ensures GroupOf(db, c) in r
      {
        var j :| 0 <= j < |db.classes.rows| && db.classes.rows[j] == c;
        var i :| 0 <= i < |cs| && cs[i] == c;
        assert r[i] == GroupOf(db, c);
      }
      Ok(StatusOk, r)
  }

  // ---------------------------------------------------------------------
  // Properties

  /** The classes listed here are the classes of `getClasses`, and each
      lists exactly as many students as `getClasses` counts. */
  lemma AgreesWithGetClasses(db: Db, caller: Option<Row<User>>)
    requires Teachers.IsTeacher(caller)
    ensures |TeacherPresence(db, caller).body| == |Teachers.GetClasses(db, caller).body|
    ensures forall i :: 0 <= i < |TeacherPresence(db, caller).body| ==>
      && TeacherPresence(db, caller).body[i].id == Teachers.GetClasses(db, caller).body[i].classe.id
      && |TeacherPresence(db, caller).body[i].students| == Teachers.GetClasses(db, caller).body[i].studentsCount
  {
  }
}

=== FILE: teacher_stats.dfy ===
/** TeacherStatsController: a teacher's dashboard counters. The cut-off
    date (thirty days before the request) is a parameter. */
module TeacherStats {

  import opened Optional
  import opened Tally
  import opened Tables
  import opened Schema
  import opened Http
  import Teachers

  datatype Counters = Counters(classes: nat, students: nat, presences: nat)

  /** Holds of the presences dated `cutoff` or later. */
  function Since(cutoff: Date): Row<Presence> -> bool {
    (p: Row<Presence>) => p.data.date >= cutoff
  }

  /** The students of the classes `cs`, class by class (a student listed
      once per class it is in). */
  function StudentsIn(db: Db, cs: seq<Row<Classe>>): nat {
    if cs == [] then 0 else |StudentsOf(db, cs[0].id)| + StudentsIn(db, cs[1..])
  }

  /** `TeacherStats`: 401 without a user, 403 for a user who is not a
      teacher, otherwise the three counters. */
  function TeacherStats(db: Db, caller: Option<Row<User>>, cutoff: Date): (r: Reply<Counters>)
    ensures caller.None? ==> r == Err(StatusUnauthenticated)
    ensures caller.Some? && caller.value.data.role != RoleEnseignant ==> r == Err(StatusForbidden)
    ensures r.Ok? <==> Teachers.IsTeacher(caller)
    ensures r.Ok? ==>
      && r.code == StatusOk
      && r.body.classes == |AssignedClasses(db, caller.value.id)|
      && r.body.presences == Count(Teachers.Watched(db, caller.value.id), Since(cutoff))
  {
    if caller.None? then Err(StatusUnauthenticated)
    else if caller.value.data.role != RoleEnseignant then Err(StatusForbidden)
    else
      var uid := caller.value.id;
      var cs := AssignedClasses(db, uid);
      Ok(StatusOk, Counters(|cs|, StudentsIn(db, cs), Count(Teachers.Watched(db, uid), Since(cutoff))))
  }

  // ---------------------------------------------------------------------
  // Properties

  lemma {:induction false} StudentsInCounts(db: Db, cs: seq<Row<Classe>>)
    ensures StudentsIn(db, cs) == SumCounts(db.students.rows, StudentClass, ClassKeys(cs))
  {
    if cs != [] {
      StudentsInCounts(db, cs[1..]);
      assert ClassKeys(cs)[1..] == ClassKeys(cs[1..]);
    }
  }

  /** The `students` counter is the number of students whose class is one
      of the teacher's classes. */
  lemma StudentsCounted(db: Db, caller: Option<Row<User>>, cutoff: Date)
    requires Valid(db.classes) && Teachers.IsTeacher(caller)
    ensures TeacherStats(db, caller, cutoff).body.students
      == Count(db.students.rows, InKeys(StudentClass, AssignedKeys(db, caller.value.id)))
  {
    var cs := AssignedClasses(db, caller.value.id);
    FilterAscending(db.classes.rows, LinkedTo(db, caller.value.id));
    ClassKeysDistinct(cs);
    StudentsInCounts(db, cs);
    SumCountsDistinct(db.students.rows, StudentClass, ClassKeys(cs));
  }

  /** The recent presences are among those `getStats` totals. */
  lemma PresencesWithinTotal(db: Db, caller: Option<Row<User>>, cutoff: Date)
    requires Teachers.IsTeacher(caller)
    ensures TeacherStats(db, caller, cutoff).body.presences <= Teachers.GetStats(db, caller).body.total
  {
  }

  /** When every presence is recent, the counter is the `getStats` total. */
  lemma AllRecentIsTotal(db: Db, caller: Option<Row<User>>, cutoff: Date)
    requires Teachers.IsTeacher(caller)
    requires forall i :: 0 <= i < |db.presences.rows| ==> db.presences.rows[i].data.date >= cutoff
    ensures TeacherStats(db, caller, cutoff).body.presences == Teachers.GetStats(db, caller).body.total
  {
    var ps := Teachers.Watched(db, caller.value.id);
    forall x | x in ps
      ensures Since(cutoff)(x)
    {
      var i :| 0 <= i < |db.presences.rows| && db.presences.rows[i] == x;
    }
    FilterAll(ps, Since(cutoff));
  }

  /** The `classes` counter is the length of `getClasses`. */
  lemma ClassesCounted(db: Db, caller: Option<Row<User>>, cutoff: Date)
    requires Teachers.IsTeacher(caller)
    ensures TeacherStats(db, caller, cutoff).body.classes == |Teachers.GetClasses(db, caller).body|
  {
  }
}
